=== FILE: README.md ===
# Gym rep tracker firmware — a Dafny model

This project models the decision logic of a wrist-worn repetition counter.
An MPU-6050 inertial sensor is sampled at 200 Hz. The samples are smoothed
and reduced to one scalar, an adaptive peak detector turns that scalar into
repetition events, and an orchestrator walks through five states: exercise
selection, per-exercise calibration, a detection warm-up and live counting.
The count is shown on a 128-pixel OLED.

One Dafny module per source file:

- `Numeric` (numeric.dfy): uint32 and uint16 wrap-around written out,
  `Option`, `fmaxf`, and the properties assumed of `sqrtf`. It also holds
  small real-arithmetic facts.
- `SysTick` (systick.dfy): the wraparound-safe elapsed-time test.
- `ExerciseConfig` (exercise_config.dfy): the profile table and the
  zero-initialised runtime context.
- `RollingWindow` (rolling_window.dfy): the 100-slot circular buffer, its
  two-pass mean and population deviation, and the moment identity that
  links them to the calibration formula.
- `RepDetect` (rep_detect.dfy): calibration, rolling statistics, the
  threshold, the warm-up and refractory gates, the Idle/InPeak machine, and
  the counters, plus lemmas about whole runs of updates.
- `ImuFilters` (imu_filters.dfy): exponential smoothing, the scalar fed to
  the detector, and normalisation of the horizontal reference.
- `Mpu6050` (mpu6050.dfy): the big-endian frame decode and the
  initialisation script with its WHO_AM_I gate.
- `UiOled` (ui_oled.dfy): centring, the truncated exercise line, the count
  line, and the screens.
- `AppController` (app_controller.dfy): the five-state machine as a pure
  step `Tick`, `Reset`, the getters, and lemmas over runs of ticks.

Modelling conventions:

- Samples and statistics are `real`.
- `sqrtf` is a parameter `sqrt: real -> real`. Lemmas that need its
  properties require `IsSqrt(sqrt)`: a non-negative argument has a
  non-negative root whose square is the argument, and the root of zero is
  zero.
- The millisecond counter is an explicit `now: u32`.
- A sensor read is an `Option` (None for a failed bus transfer).
- Display calls are returned as a list of `Screen` values.

Points where the code does something other than its comments or names
suggest; the model follows the code:

- The Detecting state performs no sampling, although the comment at
  `Firmware/src/app/app_controller.c:175` speaks of collecting samples for
  the warm-up window. The rolling window is not filled during it.
- The detector's warm-up counter is reset by `begin_calibration`
  (`Firmware/src/sensing/rep_detect.c:72`). The first 100 updates after that
  (the window capacity) report nothing.
- The orchestrator waits the global `DETECT_WARMUP_MS`. The per-exercise
  `detect_warmup_ms` is never read.
- The scalar fed to the detector is the unfiltered Y acceleration, although
  the output field is named as a filtered sample.
- The bench-press step at the end of calibration
  (`Firmware/src/app/app_controller.c:146-155`) passes the filtered output's
  `horizontal_vector` to `imu_filters_set_horizontal_reference`. That field is
  a copy of the stored reference (`Firmware/src/sensing/imu_filters.c:59-61`),
  not anything derived from the sample. The step therefore renormalises the
  stored +Z reference, or does nothing while the output is still zero, and
  never captures the direction of the bench.

## Model

| member | source | states |
|---|---|---|
| Numeric.Sub32 | Firmware/src/drivers/systick.c:49 | uint32 subtraction is the difference reduced modulo 2^32 |
| Numeric.Add32 | Firmware/src/drivers/systick.c:58 | uint32 addition is the sum reduced modulo 2^32 |
| Numeric.Inc16 | Firmware/src/sensing/rep_detect.c:85 | a uint16 increment is the successor reduced modulo 2^16 |
| Numeric.Inc16TimesIsModular | Firmware/src/sensing/rep_detect.c:217 | n successive uint16 increments from a equal (a + n) mod 2^16 |
| Numeric.Max | Firmware/src/sensing/rep_detect.c:151-152 | fmaxf returns an upper bound of both arguments that is one of them |
| SysTick.HasElapsed | Firmware/src/drivers/systick.c:46-60 | both branches answer exactly "(now - start) mod 2^32 >= interval" |
| SysTick.OverflowElapsedIsModular | Firmware/src/drivers/systick.c:58 | in the wrapped branch, 0xFFFFFFFF - start + now + 1 never overflows an intermediate uint32 and equals (now - start) mod 2^32 |
| SysTick.ZeroIntervalAlwaysElapsed | Firmware/src/drivers/systick.c:51-59 | an interval of 0 has always elapsed |
| SysTick.ElapsedMonotone | Firmware/src/drivers/systick.c:51-59 | if an interval has elapsed, every shorter one has too |
| SysTick.ElapsedAcrossWrap | Firmware/src/drivers/systick.c:46-60 | d ticks after start, the test answers d >= interval whether or not the counter wrapped |
| ExerciseConfig.Cfg | Firmware/src/sensing/exercise_config.c:4-26 | a profile lookup has a positive k, a positive prominence, a refractory period of at least the 200 ms peak interval, and a name of at most 21 characters |
| ExerciseConfig.TableWellFormed | Firmware/src/sensing/exercise_config.c:4-26 | one entry per exercise id; every k and prominence is positive, every refractory period is at least 200 ms, and names are distinct |
| ExerciseConfig.ProfileValues | Firmware/src/sensing/exercise_config.c:5-25 | k, prominence, refractory and warm-up are (2.0, 0.5, 800, 1000), (2.5, 0.7, 1000, 1200) and (3.0, 1.0, 1200, 1500) |
| ExerciseConfig.ZeroCtx | Firmware/src/sensing/exercise_config.c:29 | the power-on runtime context is uncalibrated, with a zero baseline |
| ExerciseConfig.InitialCtxTable | Firmware/src/sensing/exercise_config.c:29 | at power-on every exercise is uncalibrated |
| RollingWindow.Span | Firmware/src/sensing/rep_detect.c:128 | the statistics read 100 slots once filled, otherwise the write index, never more than 100 |
| RollingWindow.EmptyWindow | Firmware/src/sensing/rep_detect.c:39-44 | after init the buffer is all zero and the statistics span nothing |
| RollingWindow.Push | Firmware/src/sensing/rep_detect.c:118-124 | the sample lands at the write index and no other slot changes; the index advances modulo 100; filled is set exactly when the index wraps to 0 and is never cleared; the span grows by one up to 100 and is at least 1 afterwards |
| RollingWindow.PushAllFromEmpty | Firmware/src/sensing/rep_detect.c:118-128 | before the first wrap, the window holds exactly the samples pushed since init, in order |
| RollingWindow.PushAllPrefix | Firmware/src/sensing/rep_detect.c:118-124 | before a wrap, pushes append after the samples already written and leave the flag clear |
| RollingWindow.SlotsAfterPushes | Firmware/src/sensing/rep_detect.c:118-124 | after a batch of pushes, the slot written k pushes ago holds the k-th most recent sample of the batch, and a slot the batch did not reach keeps its value |
| RollingWindow.WindowAfterWrap | Firmware/src/sensing/rep_detect.c:118-128 | after at least 100 pushes from any state, the statistics read all 100 slots, which hold exactly the 100 most recent samples, rotated so the oldest is at the write index |
| RollingWindow.RollingStatsOfRecent | Firmware/src/sensing/rep_detect.c:126-143 | after at least 100 pushes, the rolling mean and deviation are those of the 100 most recent samples |
| RollingWindow.SpanAfterPushes | Firmware/src/sensing/rep_detect.c:118-128 | after k pushes the span is min(span + k, 100), from any state |
| RollingWindow.Variance | Firmware/src/sensing/rep_detect.c:137-143 | the mean squared deviation from the mean is never negative |
| RollingWindow.VarianceByMoments | Firmware/src/sensing/rep_detect.c:97 | the mean of the squares minus the squared mean (the calibration formula) equals the two-pass population variance |
| RollingWindow.StdDevIsRootOfVariance | Firmware/src/sensing/rep_detect.c:143 | the rolling deviation is a non-negative root of the population variance |
| RollingWindow.ComputeStats | Firmware/src/sensing/rep_detect.c:126-143 | the two loops compute the mean and population deviation of exactly the spanned slots |
| RollingWindow.SumPrefix | Firmware/src/sensing/rep_detect.c:127-133 | the first loop sums the first count slots |
| RollingWindow.SumSqDevPrefix | Firmware/src/sensing/rep_detect.c:137-142 | the second loop sums the squared deviations of the first count slots |
| RepDetect.Init | Firmware/src/sensing/rep_detect.c:23-57 | every exercise gets the all-zero detection state (timestamps, peak value, statistics, warm-up count, idle), an all-zero empty window, a zero counter and zero accumulators, and is marked uncalibrated; the rest of its runtime context, baseline included, is kept |
| RepDetect.PowerOn | Firmware/src/sensing/rep_detect.c:6-18 | the detector's static storage has one channel per exercise |
| RepDetect.BeginCalibration | Firmware/src/sensing/rep_detect.c:62-74 | an out-of-range index is a no-op; otherwise the accumulators and warm-up count are zeroed and the peak phase left, and every other field (window, context, counter, timestamps, peak value, statistics) is kept |
| RepDetect.Accumulate | Firmware/src/sensing/rep_detect.c:79-86 | adds the sample to the sum and its square to the sum of squares, and increments the uint16 count; nothing else changes |
| RepDetect.EndCalibration | Firmware/src/sensing/rep_detect.c:91-108 | with zero samples or an out-of-range index, a no-op that reports nothing; otherwise it reports mu = sum/n and the unfloored sigma = sqrt(max(var, 0)), stores mu and max(sigma, 0.05) >= 0.05, and marks the exercise calibrated; the accumulators, window, detector state, counter, rolling statistics, last-peak time and other exercises are kept |
| RepDetect.EndCalibrationIdempotent | Firmware/src/sensing/rep_detect.c:93-107 | ending calibration twice gives the same state and report, since the accumulators are not cleared |
| RepDetect.ReportedSigmaIsRoot | Firmware/src/sensing/rep_detect.c:96-98 | the reported sigma is a non-negative root of the clamped variance |
| RepDetect.AccumulateAllSums | Firmware/src/sensing/rep_detect.c:79-86 | a batch of fewer than 65536 samples leaves the count, sum and sum of squares of the batch added on, with nothing else changed |
| RepDetect.CalibrationWindow | Firmware/src/sensing/rep_detect.c:62-108 | begin, accumulate xs, end reports the population mean and deviation of xs, stores the floored baseline and marks calibrated; the window, counter and other exercises are unchanged |
| RepDetect.CalibMoments | Firmware/src/sensing/rep_detect.c:96-98 | accumulators holding the count, sum and sum of squares of xs yield its mean and variance, and the clamp at 0 never bites |
| RepDetect.Threshold | Firmware/src/sensing/rep_detect.c:150-154 | with a non-negative multiplier the threshold is at least baseline_mu + k * d for d each of the rolling sigma, the baseline sigma and 0.05 |
| RepDetect.ThresholdBounds | Firmware/src/sensing/rep_detect.c:150-154 | the threshold is at least baseline_mu + k * d for d each of the rolling sigma, the baseline sigma and 0.05, and equals one of the three |
| RepDetect.RefreshStats | Firmware/src/sensing/rep_detect.c:113-155 | pushes the sample, sets mean and deviation to those of the window contents, publishes both in the context, and sets the threshold; nothing else changes |
| RepDetect.RepQualifies | Firmware/src/sensing/rep_detect.c:208-214 | a qualifying peak ends neither at the instant it started nor at the previous peak end, and with a positive prominence its extreme is strictly above the threshold |
| RepDetect.PeakStep | Firmware/src/sensing/rep_detect.c:183-224 | Idle to InPeak iff sample > threshold; InPeak to Idle iff sample < threshold; the peak value tracks the maximum; a rep is counted iff a peak ends with duration >= 200, peak >= threshold + prominence and at least 200 ms since the last peak end; every peak end is stamped; an idle step that stays idle changes nothing |
| RepDetect.ChannelUpdate | Firmware/src/sensing/rep_detect.c:164-226 | the window always advances and the mean, deviation and threshold are always refreshed; the first 100 calls only count the warm-up; inside the refractory period the peak state is untouched; the counter moves by one iff a rep is reported; past both gates the peak machine runs on the refreshed statistics, so a rep is reported iff a peak ends below the new threshold and qualifies |
| RepDetect.Update | Firmware/src/sensing/rep_detect.c:160-227 | out of range or uncalibrated returns false and changes nothing, not even the window; otherwise only the exercise's own channel changes, by exactly one channel step whose report is the result, and its counter rises by exactly one iff true is returned |
| RepDetect.GetCount | Firmware/src/sensing/rep_detect.c:232-236 | the exercise's counter, or 0 out of range |
| RepDetect.GetState | Firmware/src/sensing/rep_detect.c:253-257 | a copy of the exercise's detection state; out of range or a missing destination leaves the destination as it was |
| RepDetect.ResetCount | Firmware/src/sensing/rep_detect.c:241-248 | the channel after the call is the channel before with the counter and the two rep/peak timestamps zeroed, and nothing else changed: window, baseline, accumulators, peak phase, warm-up count, mean, deviation and threshold are kept, as is every other exercise |
| RepDetect.Run | Firmware/src/sensing/rep_detect.c:160-227 | a run of updates returns one result per call and leaves other exercises untouched |
| RepDetect.RunPrefix | Firmware/src/sensing/rep_detect.c:160-227 | the results of a prefix of a run are the prefix of its results |
| RepDetect.CountTracksReps | Firmware/src/sensing/rep_detect.c:217 | after a run, the counter is its start value incremented (mod 2^16) once per call that returned true |
| RepDetect.UpdateCounter | Firmware/src/sensing/rep_detect.c:214-219 | one update moves the counter by one exactly when it returns true |
| RepDetect.WarmUpSilent | Firmware/src/sensing/rep_detect.c:170-174 | while the warm-up counter has room for every call of a run, no call reports a rep and the counter is unchanged |
| RepDetect.WarmUpAfterCalibrationStart | Firmware/src/sensing/rep_detect.c:72 | after begin_calibration, the first 100 updates never report a rep, whatever their samples and times |
| RepDetect.LastRepIsLastHit | Firmware/src/sensing/rep_detect.c:218 | the last-rep timestamp is the time of the last call that reported a rep |
| RepDetect.RefractorySpacing | Firmware/src/sensing/rep_detect.c:178-181 | two consecutive reported reps are at least the refractory period apart, mod 2^32 |
| ImuFilters.Init | Firmware/src/sensing/imu_filters.c:13-25 | both smoothing states are zero and the reference is (0, 0, 1) |
| ImuFilters.InitReferenceIsUnit | Firmware/src/sensing/imu_filters.c:22-24 | the initial reference has unit length |
| ImuFilters.Smooth | Firmware/src/sensing/imu_filters.c:35-42 | 0.1 raw + 0.9 prev lies between prev and raw, equals both when they are equal, and shrinks the distance to raw by 0.9 |
| ImuFilters.ProcessAll | Firmware/src/sensing/imu_filters.c:27-65 | a missing input or output is a no-op; otherwise both states advance, the outputs equal the new states, both reference fields equal the unchanged stored reference, and the scalar is the raw Y acceleration |
| ImuFilters.CurlScalarIsRawY | Firmware/src/sensing/imu_filters.c:64 | the scalar does not depend on the filter state, dt or the exercise |
| ImuFilters.SmoothConverges | Firmware/src/sensing/imu_filters.c:35-42 | against a constant input, after n steps the distance to the input is 0.9^n times the initial distance |
| ImuFilters.SetHorizontalReference | Firmware/src/sensing/imu_filters.c:67-78 | a missing vector or a magnitude that is not positive is a no-op; otherwise the reference becomes v / \|v\| and the smoothing states are kept |
| ImuFilters.HorizontalReferenceIsUnit | Firmware/src/sensing/imu_filters.c:72-77 | with a genuine root, a non-zero vector yields a unit reference and the zero vector changes nothing |
| ImuFilters.StoredReferenceFixed | Firmware/src/sensing/imu_filters.c:66-78 | handing the stored reference back changes nothing when it has unit length or is zero |
| Mpu6050.ToInt16 | Firmware/src/drivers/mpu6050.c:84-90 | the field is hi*256 + lo, minus 65536 exactly when hi >= 0x80, and lies in [-32768, 32767] |
| Mpu6050.DecodeEncode | Firmware/src/drivers/mpu6050.c:84-90 | every int16 survives a round trip through its big-endian byte pair |
| Mpu6050.EncodeDecode | Firmware/src/drivers/mpu6050.c:84-90 | every byte pair survives a round trip through its int16 value |
| Mpu6050.DecodeFrame | Firmware/src/drivers/mpu6050.c:84-90 | the accelerometer comes from bytes (0,1), (2,3), (4,5) and the gyroscope from (8,9), (10,11), (12,13); re-encoding the sample with the frame's temperature word gives the frame back, so only bytes 6 and 7 are dropped |
| Mpu6050.DecodeEncodeFrame | Firmware/src/drivers/mpu6050.c:84-90 | decoding recovers any sample from its frame, whatever the temperature word |
| Mpu6050.TemperatureIgnored | Firmware/src/drivers/mpu6050.c:87 | bytes 6 and 7 never influence the decoded sample |
| Mpu6050.ReadRaw | Firmware/src/drivers/mpu6050.c:79-93 | a failed bus read reports an error and leaves the record as it was; a successful one decodes the frame |
| Mpu6050.SampleRateDivider | Firmware/src/drivers/mpu6050.c:55-59 | the divider written gives 1000 / (1 + div) = 200 Hz |
| Mpu6050.InitScript | Firmware/src/drivers/mpu6050.c:53-70 | five writes, the second being SMPLRT_DIV (0x19) = 4 |
| Mpu6050.Attempted | Firmware/src/drivers/mpu6050.c:53-70 | writes are attempted up to and including the first refused one |
| Mpu6050.Init | Firmware/src/drivers/mpu6050.c:43-74 | fails without any write unless WHO_AM_I reads 0x68; succeeds iff every write is acknowledged; writes a prefix of the script up to the first failure; sets each scale factor only once its range register is written |
| Mpu6050.InitStopsAtFirstFailure | Firmware/src/drivers/mpu6050.c:53-70 | write k is attempted iff every earlier write was acknowledged |
| UiOled.CenterTextXAsWritten | Firmware/src/ui/ui_oled.c:17-25 | with the width taken mod 256: 0 when that width is at least 128, otherwise a column at which that width fits |
| UiOled.CenterX | Firmware/src/ui/ui_oled.c:17-25 | a text narrower than 128 pixels is centred (any odd pixel on the right) and fits; a wider one is at column 0 |
| UiOled.CenterAgreesUpTo42 | Firmware/src/ui/ui_oled.c:19-24 | for at most 42 characters the uint8 width does not wrap and both agree |
| UiOled.WidthWrapCounterexample | Firmware/src/ui/ui_oled.c:19-23 | at 43 characters the as-written column is 63, not the left edge, so the text is neither centred nor at the left edge |
| UiOled.ExerciseLine | Firmware/src/ui/ui_oled.c:126-134 | at most 21 characters; a name of at most 21 is copied verbatim; a longer one becomes its first 18 characters and "..." |
| UiOled.ExerciseLineStable | Firmware/src/ui/ui_oled.c:126-134 | the line always keeps the name's first 18 characters, and composing it twice changes nothing |
| UiOled.Decimal | Firmware/src/ui/ui_oled.c:141 | %d gives a non-empty digit string with no leading zero |
| UiOled.DecimalRoundTrip | Firmware/src/ui/ui_oled.c:141 | reading the printed digits back gives the count |
| UiOled.DecimalLength | Firmware/src/ui/ui_oled.c:141 | any value below 100000, so any uint16, prints in at most five digits |
| UiOled.CountLine | Firmware/src/ui/ui_oled.c:140-141 | "Reps: " plus the digits of the count, at most 11 characters so never truncated by the 22-byte buffer, and reads back as the count |
| UiOled.Splash | Firmware/src/ui/ui_oled.c:30-49 | three centred lines: the title on row 0, then "Ready to Track!" on row 1 and the version on row 2 |
| UiOled.Select | Firmware/src/ui/ui_oled.c:54-73 | three centred lines: "Select:" on row 0, the exercise name on row 1, "Auto-advance in 2s" on row 2 |
| UiOled.Calibrating | Firmware/src/ui/ui_oled.c:78-97 | three centred lines: the exercise name on row 0, then "Calibrating..." on row 1 and "Hold Still..." on row 2 |
| UiOled.Status | Firmware/src/ui/ui_oled.c:102-116 | two centred lines: the status on row 1 and "Hold Still..." on row 2 |
| UiOled.ExerciseAndCount | Firmware/src/ui/ui_oled.c:121-151 | for any name and count, three lines on rows 0 to 2, all inside the display; the first is the exercise line and the second reads back as the count |
| UiOled.TwoLines | Firmware/src/ui/ui_oled.c:156-169 | the two given lines, centred |
| UiOled.CenteredMessage | Firmware/src/ui/ui_oled.c:174-183 | the one message, centred |
| AppController.NextExercise | Firmware/src/app/app_controller.c:79 | the selection advances to (ex + 1) mod EX_COUNT |
| AppController.NextExerciseCycle | Firmware/src/app/app_controller.c:76-84 | an advance always changes the exercise, and three advances return to it |
| AppController.PowerOn | Firmware/src/app/app_controller.c:12-17 | static storage starts with a valid exercise, one detector channel per exercise, and the filters' reference at +Z |
| AppController.Init | Firmware/src/app/app_controller.c:27-48 | Boot on the bicep curl, all timers and the count at zero, state start at now, subsystems initialised and the splash shown; the invariant holds |
| AppController.Filter | Firmware/src/app/app_controller.c:119-129 | a successful read puts the raw Y acceleration in the scalar, keeps the reference, and does not touch the detector or the controller record |
| AppController.HandleBoot | Firmware/src/app/app_controller.c:53-66 | nothing happens before 1000 ms; then Selecting with both the state start and the selection timer at now, and the current exercise shown |
| AppController.HandleSelecting | Firmware/src/app/app_controller.c:71-104 | the exercise advances exactly when 2000 ms have passed on the selection timer; Calibrating is entered exactly when 6000 ms have passed in the state, committing to the possibly just advanced exercise and starting its calibration; the display shows the selection screen on an advance, then the calibration screen on the commit |
| AppController.CalibrationSample | Firmware/src/app/app_controller.c:113-137 | the sample time becomes now exactly when 5 ms have passed, even if the read fails; only a due, successful read accumulates, and what it accumulates is the raw Y acceleration |
| AppController.FinishCalibration | Firmware/src/app/app_controller.c:139-167 | ends calibration, then resets the count of the current exercise: the detector is exactly end_calibration followed by reset_count, so the rep and peak timestamps are zero while the warm-up count and peak phase are those begin_calibration left; the displayed count is zero and the state moves to Detecting; for the bench press only, the filter reference is set from the horizontal vector of the last filtered output (a copy of the stored reference); other exercises are untouched |
| AppController.HandleCalibrating | Firmware/src/app/app_controller.c:109-168 | samples first; enters Detecting exactly when 2000 ms have passed in the state |
| AppController.HandleDetecting | Firmware/src/app/app_controller.c:173-185 | no sampling: detector, filters and sample time are untouched; Running is entered after 1000 ms with a zero count shown |
| AppController.RunningSample | Firmware/src/app/app_controller.c:194-220 | a due, successful read is handed to the detector as the raw Y acceleration; after a reported rep the displayed count equals the detector's count; the flag is clear on return |
| AppController.BenchReferenceIgnoresSample | Firmware/src/app/app_controller.c:146-155 | when a sample is read on the closing tick of a bench-press calibration, the new reference is the stored reference renormalised, whatever the sample; a unit reference such as the power-on +Z is kept unchanged |
| AppController.HandleRunning | Firmware/src/app/app_controller.c:190-230 | the state is exactly the one the sampling half leaves (sample timer, filter states, filtered output, detector, count) except for the display timer; the displayed count equals the detector's count; the display refreshes exactly when 100 ms have passed on its own timer |
| AppController.Tick | Firmware/src/app/app_controller.c:235-265 | the invariant is kept: valid exercise, flag clear, and from Detecting on the displayed count mirrors the detector; each valid state is handled by exactly its own handler (Boot, Selecting, Calibrating, Detecting, Running); an invalid state value goes to Boot with a fresh state start and nothing else changed; outside Selecting the exercise never changes |
| AppController.Reset | Firmware/src/app/app_controller.c:281-293 | Boot with a fresh state start, a zero count and the flag clear; only the current exercise's detector counter is reset; the exercise, the other exercises and the filters are kept; the splash is shown |
| AppController.GetState | Firmware/src/app/app_controller.c:270-276 | a copy of the record, or nothing for a missing destination |
| AppController.GetRepCount | Firmware/src/app/app_controller.c:298-301 | under the invariant, once counting has started, the reported count is the detector's counter for the current exercise |
| AppController.GetCurrentExercise | Firmware/src/app/app_controller.c:306-309 | under the invariant, the reported exercise is a valid exercise id |
| AppController.ReportedCountIsDetectorCount | Firmware/src/app/app_controller.c:298-309 | from Detecting on, after any tick, the count getter reports the detector's counter for the exercise getter's exercise |
| AppController.RunTicks | Firmware/src/app/app_controller.c:235-265 | any sequence of ticks keeps the invariant |
| AppController.ExerciseFixedAfterSelection | Firmware/src/app/app_controller.c:237-257 | once past Selecting, any run of ticks keeps the committed exercise and stays among Calibrating, Detecting and Running |
| AppController.SelectionFullLap | Firmware/src/app/app_controller.c:76-103 | with ticks exactly at 2000, 4000 and 6000 ms after entering Selecting, the third advance coincides with the commit, so calibration starts on the exercise shown first |

## Left out

- Hardware bring-up in main.c, the polling loop, the interrupt that
  advances the tick counter, and `systick_delay_ms`: the counter value is the
  parameter `now`.
- The I2C and SSD1306 drivers: a bus read is an `Option`, a bus write is an
  acknowledge bit, and display calls are `Screen` values. The frame buffer,
  font rendering and page addressing are not modelled.
- `mpu6050_calibrate` and the float scaling in `mpu6050_convert_to_scaled`:
  the orchestrator receives scaled samples as arbitrary reals.
- IEEE-754 single precision: every quantity is a `real`, and `sqrtf` is an
  uninterpreted parameter with the root properties above. Rounding in the
  two-pass statistics and the calibration formula is not modelled.
  `VarianceByMoments` holds only over the reals.
- The orchestrator's own calibration accumulators: they are written and
  never read. The `dt` and `exercise` arguments of the filter step are
  ignored, as in the source.
- Repeated counter reads within one loop call: the source reads the counter
  again when it stores a new state start. The model uses one `now` per tick.
- AppController.Tick: a state value outside the five is represented by
  `Invalid(code)`. The model says nothing about how such a value could
  arise.
- Mpu6050.ToInt16: converting an out-of-range value to `int16_t` is
  implementation-defined in C. The model uses two's-complement wrapping, as
  the target compiler does.
- UiOled screens use the corrected `CenterX`. They agree with the code as
  written for every text of at most 42 characters (`CenterAgreesUpTo42`),
  which covers every line the firmware draws.

## Findings

| source | as written | input that shows it | evidently intended | confidence | as-written member | corrected member |
|---|---|---|---|---|---|---|
| Firmware/src/ui/ui_oled.c:19-24 | the pixel width `strlen * 6` is stored in a uint8, so it wraps modulo 256 before the too-wide test | any 43-character text: width 258 wraps to 2, the guard passes, and the text starts at column 63 and runs off the display | any text at least 128 pixels wide starts at the left edge (column 0) | not executed | UiOled.CenterTextXAsWritten, UiOled.WidthWrapCounterexample | UiOled.CenterX |

=== FILE: app_controller.dfy ===
/** The application orchestrator: a five-state machine over wall-clock time
    that selects an exercise, calibrates the detector on it, waits out a
    warm-up and then counts repetitions. One call of app_controller_loop is
    one `Tick`: the counter value it reads is the parameter `now`, the
    sensor read it may perform is the parameter `read` (None when the bus
    read fails), and the screens it draws are returned as an output trace. */
module AppController {
  import opened Numeric
  import opened SysTick
  import opened ExerciseConfig
  import RepDetect
  import ImuFilters
  import UiOled

  const BOOT_DELAY_MS: u32 := 1000
  /** IMU_SAMPLE_INTERVAL_MS = 1000 / IMU_SAMPLE_HZ. */
  const IMU_SAMPLE_INTERVAL_MS: u32 := 5
  /** UI_REFRESH_INTERVAL_MS = 1000 / UI_UPDATE_RATE_HZ. */
  const UI_REFRESH_INTERVAL_MS: u32 := 100
  /** EX_COUNT * EXERCISE_SELECT_TIMEOUT_MS. */
  const SELECT_PHASE_MS: u32 := 6000
  /** The `dt` handed to the filters: IMU_SAMPLE_INTERVAL_MS / 1000. */
  const SAMPLE_DT: real := 0.005
  const SPLASH_TITLE: string := "Gym Rep Tracker"

  /** AppState_t. `Invalid` stands for any value of the enum variable
      outside the five named states. */
  datatype Phase = Boot | Selecting | Calibrating | Detecting | Running | Invalid(code: int)

  /** AppControllerState_t. */
  datatype AppState = AppState(
    phase: Phase,
    exercise: nat,
    stateStartMs: u32,
    lastImuSampleMs: u32,
    lastUiUpdateMs: u32,
    repCount: u16,
    repDetected: bool,
    exerciseSelectMs: u32)

  /** Everything a tick reads or writes: the controller's record, the
      detector, the filter state and the last filtered sample. */
  datatype System = System(
    app: AppState,
    det: RepDetect.Detector,
    filt: ImuFilters.FilterState,
    filtered: ImuFilters.FilteredData)

  /** The controller's invariant: the exercise is a valid index, the
      detector is well formed, the detection flag is never left set, and
      from the end of calibration on, the displayed count mirrors the
      detector's counter for the current exercise. */
  predicate Valid(s: System)
  {
    && s.app.exercise < EX_COUNT
    && RepDetect.Valid(s.det)
    && !s.app.repDetected
    && (s.app.phase.Detecting? || s.app.phase.Running? ==>
          s.app.repCount == s.det.chans[s.app.exercise].repCount)
  }

  function Name(ex: ExerciseId): string
  {
    Cfg(ex).name
  }

  /** The next exercise in the selection cycle. */
  function NextExercise(ex: ExerciseId): (n: ExerciseId)
    ensures n == (ex + 1) % EX_COUNT
  {
    if ex + 1 == EX_COUNT then 0 else ex + 1
  }

  /** Three advances bring the selection back where it started. */
  lemma NextExerciseCycle(ex: ExerciseId)
    ensures NextExercise(ex) != ex
    ensures NextExercise(NextExercise(NextExercise(ex))) == ex
  {
  }

  // ---------------------------------------------------------------- init

  const ZERO_FILTERED: ImuFilters.FilteredData :=
    ImuFilters.FilteredData(ImuFilters.ZERO, ImuFilters.ZERO, ImuFilters.ZERO, 0.0, ImuFilters.ZERO)

  /** Static storage before app_controller_init runs: everything zero
      except the filters' reference, which starts at +Z. */
  function PowerOn(): (s: System)
    ensures s.app.exercise < EX_COUNT && |s.det.chans| == EX_COUNT
    ensures s.filt.href == ImuFilters.UP
  {
    System(AppState(Boot, EX_BICEP_CURL, 0, 0, 0, 0, false, 0),
           RepDetect.PowerOn(),
           ImuFilters.FilterState(ImuFilters.ZERO, ImuFilters.ZERO, ImuFilters.UP),
           ZERO_FILTERED)
  }

  /** app_controller_init: Boot on the bicep curl with every timer and the
      count at zero, both subsystems initialised, the splash screen drawn,
      and the state start taken at `now`. The last filtered sample and each
      exercise's baseline survive from `prior`. */
  function Init(prior: System, now: u32): (r: (System, seq<UiOled.Screen>))
    requires |prior.det.chans| == EX_COUNT
    ensures Valid(r.0)
    ensures r.0.app == AppState(Boot, EX_BICEP_CURL, now, 0, 0, 0, false, 0)
    ensures r.0.det == RepDetect.Init(prior.det)
    ensures r.0.filt == ImuFilters.Init() && r.0.filtered == prior.filtered
    ensures r.1 == [UiOled.Splash(SPLASH_TITLE)]
  {
    (System(AppState(Boot, EX_BICEP_CURL, now, 0, 0, 0, false, 0),
            RepDetect.Init(prior.det), ImuFilters.Init(), prior.filtered),
     [UiOled.Splash(SPLASH_TITLE)])
  }

  // ------------------------------------------------------------- sampling

  /** One successful sensor read: filter it into the stored filtered sample. */
  function Filter(s: System, sample: ImuFilters.ScaledSample): (r: System)
    ensures r.app == s.app && r.det == s.det
    ensures r.filtered.curlAxisScalar == sample.accel.y
    ensures r.filt.href == s.filt.href && r.filtered.horizontalVector == s.filt.href
  {
    var (filt', out) := ImuFilters.ProcessAll(s.filt, Some(sample), Some(s.filtered), SAMPLE_DT, s.app.exercise);
    s.(filt := filt', filtered := out.value)
  }

  // ------------------------------------------------------------- handlers

  /** handle_boot_state: after BOOT_DELAY_MS in Boot, move to Selecting,
      start both the state and the selection timer at `now`, and show the
      current exercise. Before that, nothing happens. */
  function HandleBoot(s: System, now: u32): (r: (System, seq<UiOled.Screen>))
    requires Valid(s) && s.app.phase == Boot
    ensures Valid(r.0)
    ensures !HasElapsed(now, s.app.stateStartMs, BOOT_DELAY_MS) ==> r == (s, [])
    ensures HasElapsed(now, s.app.stateStartMs, BOOT_DELAY_MS) ==>
      && r.0 == s.(app := s.app.(phase := Selecting, stateStartMs := now, exerciseSelectMs := now))
      && r.1 == [UiOled.Select(Name(s.app.exercise))]
  {
    if HasElapsed(now, s.app.stateStartMs, BOOT_DELAY_MS) then
      (s.(app := s.app.(phase := Selecting, stateStartMs := now, exerciseSelectMs := now)),
       [UiOled.Select(Name(s.app.exercise))])
    else (s, [])
  }

  /** handle_selecting_exercise_state. The advance check runs first: every
      EXERCISE_SELECT_TIMEOUT_MS the selection moves to the next exercise
      and is shown. Then, once the whole selection phase has elapsed, the
      controller commits to the (possibly just advanced) exercise, starts
      its calibration and moves to Calibrating. */
  function HandleSelecting(s: System, now: u32): (r: (System, seq<UiOled.Screen>))
    requires Valid(s) && s.app.phase == Selecting
    ensures Valid(r.0)
    ensures var advance := HasElapsed(now, s.app.exerciseSelectMs, EXERCISE_SELECT_TIMEOUT_MS);
      && r.0.app.exercise == (if advance then NextExercise(s.app.exercise) else s.app.exercise)
      && r.0.app.exerciseSelectMs == (if advance then now else s.app.exerciseSelectMs)
    ensures var commit := HasElapsed(now, s.app.stateStartMs, SELECT_PHASE_MS);
      && (r.0.app.phase == Calibrating <==> commit)
      && (!commit ==> r.0.app.phase == Selecting && r.0.app.stateStartMs == s.app.stateStartMs && r.0.det == s.det)
      && (commit ==> r.0.app.stateStartMs == now && r.0.det == RepDetect.BeginCalibration(s.det, r.0.app.exercise))
    ensures r.0.filt == s.filt && r.0.filtered == s.filtered
    ensures r.0.app.repCount == s.app.repCount && r.0.app.lastImuSampleMs == s.app.lastImuSampleMs
    ensures r.0.app.lastUiUpdateMs == s.app.lastUiUpdateMs
    // The display shows the newly selected exercise on an advance, then the
    // calibration screen on the commit.
    ensures var advance := HasElapsed(now, s.app.exerciseSelectMs, EXERCISE_SELECT_TIMEOUT_MS);
      var commit := HasElapsed(now, s.app.stateStartMs, SELECT_PHASE_MS);
      r.1 == (if advance then [UiOled.Select(Name(r.0.app.exercise))] else [])
           + (if commit then [UiOled.Calibrating(Name(r.0.app.exercise))] else [])
  {
    var a := s.app;
    var advance := HasElapsed(now, a.exerciseSelectMs, EXERCISE_SELECT_TIMEOUT_MS);
    var a1 := if advance then a.(exercise := NextExercise(a.exercise), exerciseSelectMs := now) else a;
    var shown := if advance then [UiOled.Select(Name(a1.exercise))] else [];
    if HasElapsed(now, a.stateStartMs, SELECT_PHASE_MS) then
      (s.(app := a1.(phase := Calibrating, stateStartMs := now),
          det := RepDetect.BeginCalibration(s.det, a1.exercise)),
       shown + [UiOled.Calibrating(Name(a1.exercise))])
    else
      (s.(app := a1), shown)
  }

  /** The sampling half of handle_calibrating_exercise_state: when the
      sample interval has elapsed the sample time becomes `now` whatever the
      read returns, and only a successful read is filtered and accumulated. */
  function CalibrationSample(s: System, now: u32, read: Option<ImuFilters.ScaledSample>): (r: System)
    requires Valid(s)
    ensures Valid(r)
    ensures r.app == (if HasElapsed(now, s.app.lastImuSampleMs, IMU_SAMPLE_INTERVAL_MS)
                      then s.app.(lastImuSampleMs := now) else s.app)
    ensures HasElapsed(now, s.app.lastImuSampleMs, IMU_SAMPLE_INTERVAL_MS) && read.Some? ==>
      r.det == RepDetect.Accumulate(s.det, s.app.exercise, read.value.accel.y)
    ensures !HasElapsed(now, s.app.lastImuSampleMs, IMU_SAMPLE_INTERVAL_MS) || read.None? ==>
      r.det == s.det && r.filt == s.filt && r.filtered == s.filtered
    ensures r.filt.href == s.filt.href
  {
    if !HasElapsed(now, s.app.lastImuSampleMs, IMU_SAMPLE_INTERVAL_MS) then s
    else
      var s1 := s.(app := s.app.(lastImuSampleMs := now));
      match read
      case None => s1
      case Some(sample) =>
        var s2 := Filter(s1, sample);
        s2.(det := RepDetect.Accumulate(s2.det, s2.app.exercise, s2.filtered.curlAxisScalar))
  }

  /** The closing half of handle_calibrating_exercise_state: once
      CALIBRATION_MS_EX have elapsed in the state, end the calibration, set
      the horizontal reference from the last filtered sample for the bench
      press only, zero the detector's counter and the displayed count, and
      move to Detecting. */
  function FinishCalibration(s: System, now: u32, sqrt: real -> real): (r: (System, seq<UiOled.Screen>))
    requires Valid(s)
    ensures Valid(r.0)
    ensures r.0.app == s.app.(phase := Detecting, stateStartMs := now, repCount := 0)
    ensures r.1 == [UiOled.Status("Detecting...")]
    ensures var ex := s.app.exercise;
      && RepDetect.GetCount(r.0.det, ex) == 0
      && r.0.det.chans[ex].ctx == RepDetect.EndCalibration(s.det, ex, sqrt).0.chans[ex].ctx
      && r.0.det.chans[ex].win == s.det.chans[ex].win
      && (r.0.det.chans[ex].ctx.calibrated <==> s.det.chans[ex].calib.count > 0 || s.det.chans[ex].ctx.calibrated)
    ensures forall j :: 0 <= j < EX_COUNT && j != s.app.exercise ==> r.0.det.chans[j] == s.det.chans[j]
    ensures s.app.exercise != EX_BENCH_PRESS ==> r.0.filt == s.filt
    ensures s.app.exercise == EX_BENCH_PRESS ==>
      r.0.filt == ImuFilters.SetHorizontalReference(s.filt, Some(s.filtered.horizontalVector), sqrt)
    ensures r.0.filtered == s.filtered
    // The detector ends the calibration and then clears the counter and the
    // rep and peak timestamps of the current exercise; its warm-up count and
    // peak phase are those left by begin_calibration.
    ensures r.0.det == RepDetect.ResetCount(RepDetect.EndCalibration(s.det, s.app.exercise, sqrt).0, s.app.exercise)
    ensures var c := r.0.det.chans[s.app.exercise];
      && c.st.sampleCount == s.det.chans[s.app.exercise].st.sampleCount
      && c.st.inPeak == s.det.chans[s.app.exercise].st.inPeak
      && c.st.lastRepTimeMs == 0 && c.st.lastPeakTimeMs == 0
      && c.calib == s.det.chans[s.app.exercise].calib
  {
    var ex := s.app.exercise;
    var (det1, _) := RepDetect.EndCalibration(s.det, ex, sqrt);
    var filt1 := if ex == EX_BENCH_PRESS
                 then ImuFilters.SetHorizontalReference(s.filt, Some(s.filtered.horizontalVector), sqrt)
                 else s.filt;
    (s.(app := s.app.(phase := Detecting, stateStartMs := now, repCount := 0),
        det := RepDetect.ResetCount(det1, ex), filt := filt1),
     [UiOled.Status("Detecting...")])
  }

  /** At the end of a bench-press calibration the reference handed to
      imu_filters_set_horizontal_reference is the one already stored,
      whatever sample was read last: the new reference never depends on the
      sample, and a unit reference (such as the +Z set at power-on) is kept
      as it is. */
  lemma BenchReferenceIgnoresSample(s: System, now: u32, read: Option<ImuFilters.ScaledSample>, sqrt: real -> real)
    requires Valid(s) && s.app.phase == Calibrating && s.app.exercise == EX_BENCH_PRESS
    requires IsSqrt(sqrt)
    ensures HasElapsed(now, s.app.stateStartMs, CALIBRATION_MS_EX) &&
            HasElapsed(now, s.app.lastImuSampleMs, IMU_SAMPLE_INTERVAL_MS) && read.Some? ==>
      && HandleCalibrating(s, now, read, sqrt).0.filt.href
           == ImuFilters.SetHorizontalReference(s.filt, Some(s.filt.href), sqrt).href
      && (ImuFilters.NormSq(s.filt.href) == 1.0 ==> HandleCalibrating(s, now, read, sqrt).0.filt.href == s.filt.href)
  {
    if HasElapsed(now, s.app.stateStartMs, CALIBRATION_MS_EX) &&
       HasElapsed(now, s.app.lastImuSampleMs, IMU_SAMPLE_INTERVAL_MS) && read.Some? {
      var s1 := CalibrationSample(s, now, read);
      assert s1.filtered.horizontalVector == s.filt.href;
      ImuFilters.StoredReferenceFixed(s1.filt, sqrt);
    }
  }

  /** handle_calibrating_exercise_state: sampling first, then the end test
      against the state start. */
  function HandleCalibrating(s: System, now: u32, read: Option<ImuFilters.ScaledSample>, sqrt: real -> real)
    : (r: (System, seq<UiOled.Screen>))
    requires Valid(s) && s.app.phase == Calibrating
    ensures Valid(r.0)
    ensures r.0.app.phase == Detecting <==> HasElapsed(now, s.app.stateStartMs, CALIBRATION_MS_EX)
    ensures !HasElapsed(now, s.app.stateStartMs, CALIBRATION_MS_EX) ==>
      r == (CalibrationSample(s, now, read), [])
    ensures HasElapsed(now, s.app.stateStartMs, CALIBRATION_MS_EX) ==>
      r == FinishCalibration(CalibrationSample(s, now, read), now, sqrt)
    ensures r.0.app.exercise == s.app.exercise
  {
    var s1 := CalibrationSample(s, now, read);
    if HasElapsed(now, s.app.stateStartMs, CALIBRATION_MS_EX) then FinishCalibration(s1, now, sqrt)
    else (s1, [])
  }

  /** handle_detecting_state: no sampling at all; after DETECT_WARMUP_MS
      (the global constant, not the exercise's own warm-up) move to Running
      and show the exercise with a count of zero. */
  function HandleDetecting(s: System, now: u32): (r: (System, seq<UiOled.Screen>))
    requires Valid(s) && s.app.phase == Detecting
    ensures Valid(r.0)
    ensures r.0.det == s.det && r.0.filt == s.filt && r.0.filtered == s.filtered
    ensures r.0.app.lastImuSampleMs == s.app.lastImuSampleMs
    ensures !HasElapsed(now, s.app.stateStartMs, DETECT_WARMUP_MS) ==> r == (s, [])
    ensures HasElapsed(now, s.app.stateStartMs, DETECT_WARMUP_MS) ==>
      && r.0.app == s.app.(phase := Running, stateStartMs := now)
      && r.1 == [UiOled.ExerciseAndCount(Name(s.app.exercise), 0)]
  {
    if HasElapsed(now, s.app.stateStartMs, DETECT_WARMUP_MS) then
      (s.(app := s.app.(phase := Running, stateStartMs := now)),
       [UiOled.ExerciseAndCount(Name(s.app.exercise), 0)])
    else (s, [])
  }

  /** The sampling half of handle_running_state: a due, successful read is
      filtered and handed to the detector; on a detected repetition the
      displayed count is refreshed from the detector and the flag cleared. */
  function RunningSample(s: System, now: u32, read: Option<ImuFilters.ScaledSample>, sqrt: real -> real)
    : (r: (System, bool))
    requires Valid(s) && s.app.phase == Running
    ensures Valid(r.0) && r.0.app.phase == Running
    ensures r.0.app.exercise == s.app.exercise && r.0.app.lastUiUpdateMs == s.app.lastUiUpdateMs
    ensures r.0.app.lastImuSampleMs == if HasElapsed(now, s.app.lastImuSampleMs, IMU_SAMPLE_INTERVAL_MS)
                                       then now else s.app.lastImuSampleMs
    ensures !HasElapsed(now, s.app.lastImuSampleMs, IMU_SAMPLE_INTERVAL_MS) || read.None? ==>
      !r.1 && r.0.det == s.det && r.0.app.repCount == s.app.repCount
    ensures HasElapsed(now, s.app.lastImuSampleMs, IMU_SAMPLE_INTERVAL_MS) && read.Some? ==>
      r.0.det == RepDetect.Update(s.det, s.app.exercise, read.value.accel.y, now, sqrt).0
      && r.1 == RepDetect.Update(s.det, s.app.exercise, read.value.accel.y, now, sqrt).1
    ensures r.1 ==> r.0.app.repCount == RepDetect.GetCount(r.0.det, s.app.exercise)
    ensures !r.1 ==> r.0.app.repCount == s.app.repCount
  {
    if !HasElapsed(now, s.app.lastImuSampleMs, IMU_SAMPLE_INTERVAL_MS) then (s, false)
    else
      var s1 := s.(app := s.app.(lastImuSampleMs := now));
      match read
      case None => (s1, false)
      case Some(sample) =>
        var s2 := Filter(s1, sample);
        var ex := s2.app.exercise;
        var (det', hit) := RepDetect.Update(s2.det, ex, s2.filtered.curlAxisScalar, now, sqrt);
        var count := if hit then RepDetect.GetCount(det', ex) else s2.app.repCount;
        (s2.(det := det', app := s2.app.(repCount := count, repDetected := false)), hit)
  }

  /** handle_running_state: sampling, then the display refresh, gated
      independently every UI_REFRESH_INTERVAL_MS. */
  function HandleRunning(s: System, now: u32, read: Option<ImuFilters.ScaledSample>, sqrt: real -> real)
    : (r: (System, seq<UiOled.Screen>))
    requires Valid(s) && s.app.phase == Running
    ensures Valid(r.0) && r.0.app.phase == Running
    ensures r.0.det == RunningSample(s, now, read, sqrt).0.det
    ensures r.0.app.repCount == RepDetect.GetCount(r.0.det, s.app.exercise)
    ensures r.0.app.lastUiUpdateMs == if HasElapsed(now, s.app.lastUiUpdateMs, UI_REFRESH_INTERVAL_MS)
                                      then now else s.app.lastUiUpdateMs
    ensures !HasElapsed(now, s.app.lastUiUpdateMs, UI_REFRESH_INTERVAL_MS) ==> r.1 == []
    ensures HasElapsed(now, s.app.lastUiUpdateMs, UI_REFRESH_INTERVAL_MS) ==>
      r.1 == [UiOled.ExerciseAndCount(Name(s.app.exercise), r.0.app.repCount)]
    // Apart from the display timer, the state is the one the sampling half
    // leaves: sample timer, filter states, detector and count.
    ensures var s1 := RunningSample(s, now, read, sqrt).0;
      r.0 == s1.(app := s1.app.(lastUiUpdateMs := r.0.app.lastUiUpdateMs))
  {
    var (s1, _) := RunningSample(s, now, read, sqrt);
    if HasElapsed(now, s.app.lastUiUpdateMs, UI_REFRESH_INTERVAL_MS) then
      (s1.(app := s1.app.(lastUiUpdateMs := now)),
       [UiOled.ExerciseAndCount(Name(s1.app.exercise), s1.app.repCount)])
    else (s1, [])
  }

  /** app_controller_loop: dispatch on the state; an out-of-range state
      value returns to Boot with a fresh state start and nothing else
      changed. */
  function Tick(s: System, now: u32, read: Option<ImuFilters.ScaledSample>, sqrt: real -> real)
    : (r: (System, seq<UiOled.Screen>))
    requires Valid(s)
    ensures Valid(r.0)
    ensures s.app.phase.Invalid? ==> r == (s.(app := s.app.(phase := Boot, stateStartMs := now)), [])
    ensures !s.app.phase.Selecting? ==> r.0.app.exercise == s.app.exercise
    // Each valid state is handled by its own handler.
    ensures s.app.phase.Boot? ==> r == HandleBoot(s, now)
    ensures s.app.phase.Selecting? ==> r == HandleSelecting(s, now)
    ensures s.app.phase.Calibrating? ==> r == HandleCalibrating(s, now, read, sqrt)
    ensures s.app.phase.Detecting? ==> r == HandleDetecting(s, now)
    ensures s.app.phase.Running? ==> r == HandleRunning(s, now, read, sqrt)
  {
    match s.app.phase
    case Boot => HandleBoot(s, now)
    case Selecting => HandleSelecting(s, now)
    case Calibrating => HandleCalibrating(s, now, read, sqrt)
    case Detecting => HandleDetecting(s, now)
    case Running => HandleRunning(s, now, read, sqrt)
    case Invalid(_) => (s.(app := s.app.(phase := Boot, stateStartMs := now)), [])
  }

  // ------------------------------------------------------- entry points

  /** app_controller_reset: back to Boot with a fresh state start and a
      zero count, only the current exercise's detector counter reset, the
      exercise kept, and the splash screen drawn. */
  function Reset(s: System, now: u32): (r: (System, seq<UiOled.Screen>))
    requires Valid(s)
    ensures Valid(r.0)
    ensures r.0.app == s.app.(phase := Boot, stateStartMs := now, repCount := 0, repDetected := false)
    ensures RepDetect.GetCount(r.0.det, s.app.exercise) == 0
    ensures r.0.det == RepDetect.ResetCount(s.det, s.app.exercise)
    ensures forall j :: 0 <= j < EX_COUNT && j != s.app.exercise ==> r.0.det.chans[j] == s.det.chans[j]
    ensures r.0.filt == s.filt && r.0.filtered == s.filtered
    ensures r.1 == [UiOled.Splash(SPLASH_TITLE)]
  {
    (s.(app := s.app.(phase := Boot, stateStartMs := now, repCount := 0, repDetected := false),
        det := RepDetect.ResetCount(s.det, s.app.exercise)),
     [UiOled.Splash(SPLASH_TITLE)])
  }

  /** app_controller_get_state: a copy of the record, or nothing when the
      destination is missing. */
  function GetState(s: System, dest: Option<AppState>): (r: Option<AppState>)
    ensures dest.None? ==> r.None?
    ensures dest.Some? ==> r == Some(s.app)
  {
    if dest.None? then None else Some(s.app)
  }

  /** app_controller_get_rep_count: once counting has started, the
      detector's counter for the current exercise. */
  function GetRepCount(s: System): (n: u16)
    ensures Valid(s) && (s.app.phase.Detecting? || s.app.phase.Running?) ==>
      n == RepDetect.GetCount(s.det, s.app.exercise)
  {
    s.app.repCount
  }

  /** app_controller_get_current_exercise: always a valid exercise id. */
  function GetCurrentExercise(s: System): (ex: nat)
    ensures Valid(s) ==> ex < EX_COUNT && ex == s.app.exercise
  {
    s.app.exercise
  }

  /** Once counting has started, the count the getter reports is the
      detector's counter for the exercise the getter reports, after every
      tick. */
  lemma ReportedCountIsDetectorCount(s: System, now: u32, read: Option<ImuFilters.ScaledSample>, sqrt: real -> real)
    requires Valid(s) && (s.app.phase.Detecting? || s.app.phase.Running?)
    ensures var r := Tick(s, now, read, sqrt).0;
      GetRepCount(r) == RepDetect.GetCount(r.det, GetCurrentExercise(r))
  {
  }

  // ---------------------------------------------------------------- runs

  /** One call of app_controller_loop: the counter value and the outcome of
      the sensor read, if one is made. */
  datatype TickInput = TickInput(now: u32, read: Option<ImuFilters.ScaledSample>)

  /** A sequence of loop calls, collecting every screen drawn. */
  function RunTicks(s: System, inputs: seq<TickInput>, sqrt: real -> real): (r: (System, seq<UiOled.Screen>))
    requires Valid(s)
    ensures Valid(r.0)
    decreases |inputs|
  {
    if |inputs| == 0 then (s, [])
    else
      var (s1, out1) := Tick(s, inputs[0].now, inputs[0].read, sqrt);
      var (s2, out2) := RunTicks(s1, inputs[1..], sqrt);
      (s2, out1 + out2)
  }

  /** Outside selection the exercise never changes, whatever the inputs:
      once Calibrating is entered, a run that does not return to Selecting
      keeps the committed exercise. Boot leads only to Selecting, so the
      claim is stated for runs that start past the selection phase and stay
      there. */
  lemma {:induction false} ExerciseFixedAfterSelection(s: System, inputs: seq<TickInput>, sqrt: real -> real)
    requires Valid(s) && (s.app.phase.Calibrating? || s.app.phase.Detecting? || s.app.phase.Running?)
    ensures RunTicks(s, inputs, sqrt).0.app.exercise == s.app.exercise
    ensures RunTicks(s, inputs, sqrt).0.app.phase in {Calibrating, Detecting, Running}
    decreases |inputs|
  {
    if |inputs| > 0 {
      var s1 := Tick(s, inputs[0].now, inputs[0].read, sqrt).0;
      assert s1.app.exercise == s.app.exercise;
      assert s1.app.phase in {Calibrating, Detecting, Running};
      ExerciseFixedAfterSelection(s1, inputs[1..], sqrt);
    }
  }

  /** With ticks exactly on the EXERCISE_SELECT_TIMEOUT_MS grid after
      entering Selecting (and no counter wrap), the selection advances three
      times, the third advance lands in the same call as the commit, and
      calibration starts on the exercise that was shown first. */
  lemma SelectionFullLap(s: System, t0: u32)
    requires Valid(s) && s.app.phase == Selecting
    requires s.app.stateStartMs == t0 && s.app.exerciseSelectMs == t0
    requires t0 + SELECT_PHASE_MS < U32_MOD
    ensures var s1 := HandleSelecting(s, t0 + 2000).0;
      var s2 := HandleSelecting(s1, t0 + 4000).0;
      var s3 := HandleSelecting(s2, t0 + 6000).0;
      && s1.app.phase == Selecting && s2.app.phase == Selecting
      && s3.app.phase == Calibrating
      && s3.app.exercise == s.app.exercise
      && s3.det == RepDetect.BeginCalibration(s.det, s.app.exercise)
  {
    var s1 := HandleSelecting(s, t0 + 2000).0;
    var s2 := HandleSelecting(s1, t0 + 4000).0;
    assert s1.app.exerciseSelectMs == t0 + 2000 && s1.app.stateStartMs == t0;
    assert s2.app.exerciseSelectMs == t0 + 4000 && s2.app.stateStartMs == t0;
    NextExerciseCycle(s.app.exercise);
  }
}

=== FILE: exercise_config.dfy ===
/** The static per-exercise profile table and the zero-initialised
    per-exercise runtime context that the detector and the orchestrator read. */
module ExerciseConfig {
  import opened Numeric

  /** Exercise identifiers are the enum values 0..EX_COUNT-1. */
  const EX_BICEP_CURL: nat := 0
  const EX_SHOULDER_PRESS: nat := 1
  const EX_BENCH_PRESS: nat := 2
  const EX_COUNT: nat := 3

  type ExerciseId = ex: nat | ex < EX_COUNT

  /** Timing of the orchestrator's phases, in milliseconds. */
  const EXERCISE_SELECT_TIMEOUT_MS: u32 := 2000
  const CALIBRATION_MS_EX: u32 := 2000
  const DETECT_WARMUP_MS: u32 := 1000

  /** Floor applied to every standard deviation used in the threshold. */
  const MIN_SIGMA_FLOOR_G: real := 0.05

  /** Minimum time between peak ends, and minimum peak duration. */
  const MIN_PEAK_INTERVAL_MS: u32 := 200

  datatype Profile = Profile(
    name: string,
    threshK: real,
    minProminenceG: real,
    refractoryMs: u16,
    detectWarmupMs: u16)

  /** The EX_CFG table, indexed by exercise id. */
  const EX_CFG: seq<Profile> := [
    Profile("Bicep Curl", 2.0, 0.5, 800, 1000),
    Profile("Shoulder Press", 2.5, 0.7, 1000, 1200),
    Profile("Bench Press", 3.0, 1.0, 1200, 1500)
  ]

  /** Looks up the profile of a valid exercise. */
  function Cfg(ex: ExerciseId): (p: Profile)
    ensures p == EX_CFG[ex]
    ensures p.threshK > 0.0
    ensures p.minProminenceG > 0.0
    ensures p.refractoryMs >= MIN_PEAK_INTERVAL_MS
    ensures 0 < |p.name| <= 21
  {
    EX_CFG[ex]
  }

  /** The table holds exactly one entry per exercise id, and every entry has
      a positive threshold multiplier, a positive prominence and a refractory
      period at least as long as the minimum peak interval. */
  lemma TableWellFormed()
    ensures |EX_CFG| == EX_COUNT
    ensures forall ex :: 0 <= ex < |EX_CFG| ==>
      && EX_CFG[ex].threshK > 0.0
      && EX_CFG[ex].minProminenceG > 0.0
      && EX_CFG[ex].refractoryMs >= MIN_PEAK_INTERVAL_MS
    ensures forall ex, ex' :: 0 <= ex < ex' < |EX_CFG| ==> EX_CFG[ex].name != EX_CFG[ex'].name
  {
  }

  /** The configured values of each profile. */
  lemma ProfileValues()
    ensures Cfg(EX_BICEP_CURL).threshK == 2.0 && Cfg(EX_BICEP_CURL).minProminenceG == 0.5
    ensures Cfg(EX_BICEP_CURL).refractoryMs == 800 && Cfg(EX_BICEP_CURL).detectWarmupMs == 1000
    ensures Cfg(EX_SHOULDER_PRESS).threshK == 2.5 && Cfg(EX_SHOULDER_PRESS).minProminenceG == 0.7
    ensures Cfg(EX_SHOULDER_PRESS).refractoryMs == 1000 && Cfg(EX_SHOULDER_PRESS).detectWarmupMs == 1200
    ensures Cfg(EX_BENCH_PRESS).threshK == 3.0 && Cfg(EX_BENCH_PRESS).minProminenceG == 1.0
    ensures Cfg(EX_BENCH_PRESS).refractoryMs == 1200 && Cfg(EX_BENCH_PRESS).detectWarmupMs == 1500
  {
  }

  /** The per-exercise runtime context REP_CTX: the committed baseline,
      the latest rolling statistics, and whether a baseline exists. */
  datatype RepCtx = RepCtx(
    baselineMu: real,
    baselineSigma: real,
    rollingMu: real,
    rollingSigma: real,
    lastPeakMs: u32,
    calibrated: bool)

  /** REP_CTX as it is at power-on: every field zero. */
  function ZeroCtx(): (c: RepCtx)
    ensures !c.calibrated
    ensures c.baselineMu == 0.0 && c.baselineSigma == 0.0
  {
    RepCtx(0.0, 0.0, 0.0, 0.0, 0, false)
  }

  /** The whole REP_CTX array at power-on: one uncalibrated context per exercise. */
  function InitialCtxTable(): (t: seq<RepCtx>)
    ensures |t| == EX_COUNT
    ensures forall ex :: 0 <= ex < |t| ==> !t[ex].calibrated
  {
    [ZeroCtx(), ZeroCtx(), ZeroCtx()]
  }
}

=== FILE: imu_filters.dfy ===
/** The signal conditioner between the sensor and the detector: per-axis
    exponential smoothing of acceleration and angular rate, the scalar the
    detector consumes, and the stored horizontal reference direction. */
module ImuFilters {
  import opened Numeric

  /** ACCEL_ALPHA and GYRO_ALPHA: the weight of the new sample. */
  const ALPHA: real := 0.1

  datatype Vec3 = Vec3(x: real, y: real, z: real)

  /** MPU6050_ScaledData_t: acceleration in g, angular rate in deg/s. */
  datatype ScaledSample = ScaledSample(accel: Vec3, gyro: Vec3)

  /** The module's static state: both smoothing states and the reference. */
  datatype FilterState = FilterState(accel: Vec3, gyro: Vec3, href: Vec3)

  /** IMUFilteredData_t. */
  datatype FilteredData = FilteredData(
    accelFiltered: Vec3,
    gyroFiltered: Vec3,
    horizontalRef: Vec3,
    curlAxisScalar: real,
    horizontalVector: Vec3)

  const ZERO: Vec3 := Vec3(0.0, 0.0, 0.0)
  const UP: Vec3 := Vec3(0.0, 0.0, 1.0)

  /** imu_filters_init: both smoothing states zero, the reference +Z. */
  function Init(): (st: FilterState)
    ensures st.accel == ZERO && st.gyro == ZERO
    ensures st.href == UP
  {
    FilterState(ZERO, ZERO, UP)
  }

  /** The initial reference is a unit vector. */
  lemma InitReferenceIsUnit()
    ensures NormSq(Init().href) == 1.0
  {
  }

  /** One first-order low-pass step of one channel. */
  function Smooth(prev: real, raw: real): (r: real)
    ensures prev <= raw ==> prev <= r <= raw
    ensures raw <= prev ==> raw <= r <= prev
    ensures prev == raw ==> r == raw
    ensures r - raw == 0.9 * (prev - raw)
  {
    ALPHA * raw + (1.0 - ALPHA) * prev
  }

  /** Smoothing applied channel by channel. */
  function Smooth3(prev: Vec3, raw: Vec3): (r: Vec3)
    ensures r == Vec3(Smooth(prev.x, raw.x), Smooth(prev.y, raw.y), Smooth(prev.z, raw.z))
  {
    Vec3(Smooth(prev.x, raw.x), Smooth(prev.y, raw.y), Smooth(prev.z, raw.z))
  }

  /** imu_filters_process_all. A missing input or output (a null pointer in
      the source) changes nothing. Otherwise both smoothing states advance,
      every output field is written, and the reference is copied out
      unchanged. `dt` and `exercise` are accepted and ignored, as in the
      source. */
  function ProcessAll(st: FilterState, raw: Option<ScaledSample>, out: Option<FilteredData>,
                      dt: real, exercise: nat): (r: (FilterState, Option<FilteredData>))
    ensures raw.None? || out.None? ==> r == (st, out)
    ensures raw.Some? && out.Some? ==>
      && r.0.href == st.href
      && r.0.accel == Smooth3(st.accel, raw.value.accel)
      && r.0.gyro == Smooth3(st.gyro, raw.value.gyro)
      && r.1.Some?
      && r.1.value.accelFiltered == r.0.accel
      && r.1.value.gyroFiltered == r.0.gyro
      && r.1.value.horizontalRef == st.href
      && r.1.value.horizontalVector == st.href
      && r.1.value.curlAxisScalar == raw.value.accel.y
  {
    if raw.None? || out.None? then (st, out)
    else
      var s := raw.value;
      var accel := Smooth3(st.accel, s.accel);
      var gyro := Smooth3(st.gyro, s.gyro);
      (FilterState(accel, gyro, st.href),
       Some(FilteredData(accel, gyro, st.href, s.accel.y, st.href)))
  }

  /** The scalar handed to the detector depends on the current raw Y
      acceleration alone: not on the smoothing history, the time step or the
      exercise. */
  lemma CurlScalarIsRawY(st1: FilterState, st2: FilterState, s: ScaledSample,
                         o1: FilteredData, o2: FilteredData, dt1: real, dt2: real, ex1: nat, ex2: nat)
    ensures ProcessAll(st1, Some(s), Some(o1), dt1, ex1).1.value.curlAxisScalar
         == ProcessAll(st2, Some(s), Some(o2), dt2, ex2).1.value.curlAxisScalar
         == s.accel.y
  {
  }

  /** `n` smoothing steps of one channel against a constant input. */
  function SmoothSteps(prev: real, c: real, n: nat): real
    decreases n
  {
    if n == 0 then prev else Smooth(SmoothSteps(prev, c, n - 1), c)
  }

  function Pow(b: real, n: nat): real
    decreases n
  {
    if n == 0 then 1.0 else b * Pow(b, n - 1)
  }

  /** Against a constant input the distance to that input shrinks by the
      factor 0.9 at every step. */
  lemma {:induction false} SmoothConverges(prev: real, c: real, n: nat)
    ensures SmoothSteps(prev, c, n) - c == Pow(0.9, n) * (prev - c)
    decreases n
  {
    if n > 0 {
      var p := Pow(0.9, n - 1);
      var e := SmoothSteps(prev, c, n - 1);
      SmoothConverges(prev, c, n - 1);
      ContractStep(e, c, p, prev - c);
    }
  }

  /** One smoothing step multiplies a distance of p * d by 0.9. */
  lemma ContractStep(e: real, c: real, p: real, d: real)
    requires e - c == p * d
    ensures Smooth(e, c) - c == (0.9 * p) * d
  {
    MulAssoc(0.9, p, d);
  }

  lemma MulAssoc(a: real, b: real, c: real)
    ensures a * (b * c) == (a * b) * c
  {
  }

  // -------------------------------------------------- horizontal reference

  function NormSq(v: Vec3): real
  {
    Square(v.x) + Square(v.y) + Square(v.z)
  }

  function Magnitude(v: Vec3, sqrt: real -> real): real
  {
    sqrt(NormSq(v))
  }

  /** imu_filters_set_horizontal_reference. A missing vector changes
      nothing; so does one of magnitude zero. Otherwise the stored reference
      becomes the vector divided by its magnitude. */
  function SetHorizontalReference(st: FilterState, v: Option<Vec3>, sqrt: real -> real): (r: FilterState)
    ensures r.accel == st.accel && r.gyro == st.gyro
    ensures v.None? ==> r == st
    ensures v.Some? && !(Magnitude(v.value, sqrt) > 0.0) ==> r == st
    ensures v.Some? && Magnitude(v.value, sqrt) > 0.0 ==>
      var m := Magnitude(v.value, sqrt);
      r.href == Vec3(v.value.x / m, v.value.y / m, v.value.z / m)
  {
    if v.None? then st
    else
      var m := Magnitude(v.value, sqrt);
      if m > 0.0 then st.(href := Vec3(v.value.x / m, v.value.y / m, v.value.z / m))
      else st
  }

  /** Handing the stored reference back to SetHorizontalReference changes
      nothing when that reference has unit length (or is zero): the call
      renormalises what is already stored. */
  lemma StoredReferenceFixed(st: FilterState, sqrt: real -> real)
    requires IsSqrt(sqrt)
    ensures NormSq(st.href) == 1.0 || st.href == ZERO ==>
      SetHorizontalReference(st, Some(st.href), sqrt) == st
  {
    if NormSq(st.href) == 1.0 {
      SqrtOne(sqrt);
      assert Magnitude(st.href, sqrt) == 1.0;
    } else if st.href == ZERO {
      HorizontalReferenceIsUnit(st, st.href, sqrt);
    }
  }

  /** With a genuine square root, the reference changes exactly when the
      vector is present and non-zero, and the new reference has unit length. */
  lemma HorizontalReferenceIsUnit(st: FilterState, v: Vec3, sqrt: real -> real)
    requires IsSqrt(sqrt)
    ensures v != ZERO ==> NormSq(SetHorizontalReference(st, Some(v), sqrt).href) == 1.0
    ensures v == ZERO ==> SetHorizontalReference(st, Some(v), sqrt) == st
  {
    var m := Magnitude(v, sqrt);
    SqrtOf(sqrt, NormSq(v));
    if v != ZERO {
      NormSqPositive(v);
      RootPositive(m, NormSq(v));
      UnitAfterScaling(v.x, v.y, v.z, m);
    } else {
      assert NormSq(v) == 0.0;
      assert sqrt(0.0) == 0.0;
    }
  }

  lemma NormSqPositive(v: Vec3)
    requires v != ZERO
    ensures NormSq(v) > 0.0
  {
    if v.x != 0.0 {
      SquarePositive(v.x);
    } else if v.y != 0.0 {
      SquarePositive(v.y);
    } else {
      SquarePositive(v.z);
    }
  }

  lemma SquarePositive(d: real)
    requires d != 0.0
    ensures Square(d) > 0.0
  {
    var e := if d > 0.0 then d else -d;
    PositiveSquare(e);
    calc {
      Square(d);
      d * d;
      e * e;
    >
      0.0;
    }
  }

  lemma RootPositive(m: real, t: real)
    requires m >= 0.0 && m * m == t && t > 0.0
    ensures m > 0.0
  {
    assert m == 0.0 ==> m * m == 0.0;
  }

  /** Dividing each component by the root of the squared norm gives a vector
      of squared norm one. */
  lemma UnitAfterScaling(x: real, y: real, z: real, m: real)
    requires m > 0.0 && m * m == Square(x) + Square(y) + Square(z)
    ensures Square(x / m) + Square(y / m) + Square(z / m) == 1.0
  {
    ScaledSum(x, y, z, m);
    var s := Square(x / m) + Square(y / m) + Square(z / m);
    calc {
      s * (m * m);
      Square(x) + Square(y) + Square(z);
      m * m;
    }
    CancelSquare(s, m);
  }

  lemma ScaledSquare(x: real, m: real)
    requires m != 0.0
    ensures Square(x / m) * (m * m) == Square(x)
  {
  }

  lemma ScaledSum(x: real, y: real, z: real, m: real)
    requires m != 0.0
    ensures (Square(x / m) + Square(y / m) + Square(z / m)) * (m * m) == Square(x) + Square(y) + Square(z)
  {
    ScaledSquare(x, m);
    ScaledSquare(y, m);
    ScaledSquare(z, m);
    Distribute3(Square(x / m), Square(y / m), Square(z / m), m * m);
  }

  lemma Distribute3(p: real, q: real, r: real, n: real)
    ensures (p + q + r) * n == p * n + q * n + r * n
  {
  }
}

=== FILE: mpu6050.dfy ===
/** The parts of the MPU-6050 driver with decision logic: the WHO_AM_I gate
    and register script of initialisation, and the decoding of the 14-byte
    burst read starting at ACCEL_XOUT_H. The I2C bus is not modelled: a read
    is an `Option` of the bytes the bus returned, a write is an acknowledge
    bit supplied by the caller. */
module Mpu6050 {
  import opened Numeric

  const INT16_MIN: int := -0x8000
  const INT16_MAX: int := 0x7FFF

  type i16 = x: int | INT16_MIN <= x <= INT16_MAX

  /** The 14 bytes of one burst read: accelerometer X/Y/Z, temperature,
      gyroscope X/Y/Z, each a big-endian pair. */
  type Frame = s: seq<u8> | |s| == 14 witness [0, 0, 0, 0, 0, 0, 0, 0, 0, 0, 0, 0, 0, 0]

  /** MPU6050_RawData_t. */
  datatype RawData = RawData(accelX: i16, accelY: i16, accelZ: i16, gyroX: i16, gyroY: i16, gyroZ: i16)

  // ------------------------------------------------------------ byte pairs

  /** `(int16_t)(hi << 8 | lo)`: the 16-bit word read as two's complement.
      The conversion of an out-of-range value to int16_t is
      implementation-defined in C; the model takes the wrapping conversion
      every two's-complement target uses. */
  function ToInt16(hi: u8, lo: u8): (v: i16)
    ensures v < 0 <==> hi >= 0x80
    ensures v >= 0 ==> v == hi * 0x100 + lo
    ensures v < 0 ==> v + 0x1_0000 == hi * 0x100 + lo
  {
    var word := hi * 0x100 + lo;
    if word >= 0x8000 then word - 0x1_0000 else word
  }

  /** The big-endian byte pair of a 16-bit two's-complement value. */
  function FromInt16(v: i16): (r: (u8, u8))
  {
    var word := if v < 0 then v + 0x1_0000 else v;
    (word / 0x100, word % 0x100)
  }

  /** Every 16-bit value survives a round trip through its byte pair. */
  lemma DecodeEncode(v: i16)
    ensures ToInt16(FromInt16(v).0, FromInt16(v).1) == v
  {
    var word := if v < 0 then v + 0x1_0000 else v;
    assert word == (word / 0x100) * 0x100 + word % 0x100;
  }

  /** Every byte pair survives a round trip through its value: decoding is
      a bijection between byte pairs and the int16 range. */
  lemma EncodeDecode(hi: u8, lo: u8)
    ensures FromInt16(ToInt16(hi, lo)) == (hi, lo)
  {
    var word := hi * 0x100 + lo;
    assert word / 0x100 == hi;
    assert word % 0x100 == lo;
  }

  // ---------------------------------------------------------------- frames

  /** The field decoding of mpu6050_read_raw. Bytes 6 and 7 hold the
      temperature and are skipped; every other byte is kept, so the frame
      can be rebuilt from the sample and the temperature word. */
  function DecodeFrame(f: Frame): (r: RawData)
    ensures r.accelX == ToInt16(f[0], f[1]) && r.accelY == ToInt16(f[2], f[3])
    ensures r.accelZ == ToInt16(f[4], f[5])
    ensures r.gyroX == ToInt16(f[8], f[9]) && r.gyroY == ToInt16(f[10], f[11])
    ensures r.gyroZ == ToInt16(f[12], f[13])
    ensures EncodeFrame(r, ToInt16(f[6], f[7])) == f
  {
    EncodeDecode(f[0], f[1]);
    EncodeDecode(f[2], f[3]);
    EncodeDecode(f[4], f[5]);
    EncodeDecode(f[6], f[7]);
    EncodeDecode(f[8], f[9]);
    EncodeDecode(f[10], f[11]);
    EncodeDecode(f[12], f[13]);
    RawData(ToInt16(f[0], f[1]), ToInt16(f[2], f[3]), ToInt16(f[4], f[5]),
            ToInt16(f[8], f[9]), ToInt16(f[10], f[11]), ToInt16(f[12], f[13]))
  }

  /** The frame the sensor sends for a sample and a temperature word. */
  function EncodeFrame(raw: RawData, temp: i16): (f: Frame)
  {
    var ax, ay, az := FromInt16(raw.accelX), FromInt16(raw.accelY), FromInt16(raw.accelZ);
    var t := FromInt16(temp);
    var gx, gy, gz := FromInt16(raw.gyroX), FromInt16(raw.gyroY), FromInt16(raw.gyroZ);
    [ax.0, ax.1, ay.0, ay.1, az.0, az.1, t.0, t.1, gx.0, gx.1, gy.0, gy.1, gz.0, gz.1]
  }

  /** Decoding recovers every sample the sensor can send, whatever the
      temperature. */
  lemma DecodeEncodeFrame(raw: RawData, temp: i16)
    ensures DecodeFrame(EncodeFrame(raw, temp)) == raw
  {
    DecodeEncode(raw.accelX);
    DecodeEncode(raw.accelY);
    DecodeEncode(raw.accelZ);
    DecodeEncode(raw.gyroX);
    DecodeEncode(raw.gyroY);
    DecodeEncode(raw.gyroZ);
  }

  /** The temperature bytes never influence the decoded sample. */
  lemma TemperatureIgnored(f: Frame, g: Frame)
    requires forall i :: 0 <= i < 14 && i != 6 && i != 7 ==> f[i] == g[i]
    ensures DecodeFrame(f) == DecodeFrame(g)
  {
    assert f[0] == g[0] && f[1] == g[1] && f[2] == g[2] && f[3] == g[3];
    assert f[4] == g[4] && f[5] == g[5] && f[8] == g[8] && f[9] == g[9];
    assert f[10] == g[10] && f[11] == g[11] && f[12] == g[12] && f[13] == g[13];
  }

  /** mpu6050_read_raw. `bus` is the outcome of the 14-byte bus read: a
      failed read reports an error and leaves the caller's record `prev` as
      it was; a successful one overwrites all six fields. */
  function ReadRaw(prev: RawData, bus: Option<Frame>): (r: (bool, RawData))
    ensures bus.None? ==> r == (false, prev)
    ensures bus.Some? ==> r.0 && r.1 == DecodeFrame(bus.value)
  {
    match bus
    case None => (false, prev)
    case Some(f) => (true, DecodeFrame(f))
  }

  // ------------------------------------------------------------------ init

  const WHO_AM_I_VALUE: u8 := 0x68
  const IMU_SAMPLE_HZ: nat := 200

  /** Sample rate = 1 kHz / (1 + SMPLRT_DIV), so the divider for the
      configured rate is 1000 / IMU_SAMPLE_HZ - 1. */
  function SampleRateDivider(): (div: u8)
    ensures 1000 / (1 + div) == IMU_SAMPLE_HZ
  {
    1000 / IMU_SAMPLE_HZ - 1
  }

  /** One register write of the initialisation script. */
  datatype RegWrite = RegWrite(reg: u8, value: u8)

  /** The writes mpu6050_init performs after the WHO_AM_I check, in order:
      wake (PWR_MGMT_1), sample-rate divider, DLPF at 42 Hz, gyroscope at
      +/-250 deg/s, accelerometer at +/-2 g. */
  function InitScript(): (s: seq<RegWrite>)
    ensures |s| == 5
    ensures s[1] == RegWrite(0x19, 4)
  {
    [RegWrite(0x6B, 0x00), RegWrite(0x19, SampleRateDivider()), RegWrite(0x1A, 0x03),
     RegWrite(0x1B, 0x00), RegWrite(0x1C, 0x00)]
  }

  /** The driver's scale factors, in LSB per unit; zero until configured. */
  datatype Scales = Scales(accel: real, gyro: real)

  datatype InitResult = InitResult(ok: bool, written: seq<RegWrite>, scales: Scales)

  /** How many writes of the script are attempted when the i-th write is
      acknowledged iff `acks[i]`: all of them up to and including the first
      one that fails. */
  function Attempted(acks: seq<bool>): (n: nat)
    ensures n <= |acks|
    ensures forall i :: 0 <= i < n - 1 ==> acks[i]
    ensures n < |acks| ==> n > 0 && !acks[n - 1]
    ensures n == |acks| && n > 0 ==> (acks[n - 1] <==> forall i :: 0 <= i < |acks| ==> acks[i])
    decreases |acks|
  {
    if |acks| == 0 then 0
    else if !acks[0] then 1
    else 1 + Attempted(acks[1..])
  }

  /** mpu6050_init. `who` is the WHO_AM_I read (None when the bus read
      fails) and `acks` the acknowledge of each script write. The gyroscope
      scale is set once its range register is written, the accelerometer
      scale once its own is. */
  function Init(who: Option<u8>, acks: seq<bool>, prior: Scales): (r: InitResult)
    requires |acks| == |InitScript()|
    ensures who != Some(WHO_AM_I_VALUE) ==> r == InitResult(false, [], prior)
    ensures r.ok <==> who == Some(WHO_AM_I_VALUE) && forall i :: 0 <= i < |acks| ==> acks[i]
    ensures who == Some(WHO_AM_I_VALUE) ==> r.written == InitScript()[..Attempted(acks)]
    ensures r.scales.gyro == if who == Some(WHO_AM_I_VALUE) && Attempted(acks) >= 4 && acks[3] then 131.0 else prior.gyro
    ensures r.scales.accel == if r.ok then 16384.0 else prior.accel
  {
    if who != Some(WHO_AM_I_VALUE) then InitResult(false, [], prior)
    else
      var n := Attempted(acks);
      var gyroSet := n >= 4 && acks[3];
      var ok := n == 5 && acks[4];
      InitResult(ok, InitScript()[..n],
                 Scales(if ok then 16384.0 else prior.accel, if gyroSet then 131.0 else prior.gyro))
  }

  /** Initialisation stops at the first refused write: a write is attempted
      exactly when every earlier write was acknowledged. */
  lemma InitStopsAtFirstFailure(acks: seq<bool>, prior: Scales, k: nat)
    requires |acks| == |InitScript()| && k < |acks|
    ensures (k < |Init(Some(WHO_AM_I_VALUE), acks, prior).written|)
        <==> (forall i :: 0 <= i < k ==> acks[i])
  {
    var n := Attempted(acks);
    if forall i :: 0 <= i < k ==> acks[i] {
      if n <= k {
        assert false;
      }
    }
  }
}

=== FILE: numeric.dfy ===
/** Machine-integer widths and the small real-number helpers shared by the
    firmware model. C's unsigned arithmetic wraps; Dafny's integers do not,
    so every wrap the firmware relies on is written out here once. */
module Numeric {

  const U32_MOD: int := 0x1_0000_0000
  const U32_MAX: int := 0xFFFF_FFFF
  const U16_MOD: int := 0x1_0000
  const U8_MOD: int := 0x100

  type u32 = x: int | 0 <= x < U32_MOD
  type u16 = x: int | 0 <= x < U16_MOD
  type u8 = x: int | 0 <= x < U8_MOD

  datatype Option<+T> = None | Some(value: T)

  /** `a - b` on uint32_t operands: the difference reduced modulo 2^32. */
  function Sub32(a: u32, b: u32): (r: u32)
    ensures r == (a - b) % 0x1_0000_0000
  {
    if a >= b then a - b else a - b + U32_MOD
  }

  /** `a + b` on uint32_t operands: the sum reduced modulo 2^32. */
  function Add32(a: u32, b: u32): (r: u32)
    ensures r == (a + b) % 0x1_0000_0000
  {
    if a + b < U32_MOD then a + b else a + b - U32_MOD
  }

  /** `x++` on a uint16_t: the successor reduced modulo 2^16. */
  function Inc16(x: u16): (r: u16)
    ensures r == (x + 1) % 0x1_0000
  {
    if x + 1 == U16_MOD then 0 else x + 1
  }

  /** `n` successive increments of a uint16_t starting at `a`. */
  function Inc16Times(a: u16, n: nat): u16
    decreases n
  {
    if n == 0 then a else Inc16(Inc16Times(a, n - 1))
  }

  /** Repeated increments wrap modulo 2^16. */
  lemma {:induction false} Inc16TimesIsModular(a: u16, n: nat)
    ensures Inc16Times(a, n) == (a + n) % 0x1_0000
    decreases n
  {
    if n > 0 {
      var m := n - 1;
      Inc16TimesIsModular(a, m);
      var prev := Inc16Times(a, m);
      assert Inc16Times(a, n) == Inc16(prev);
      var x: nat := a + m;
      ModSucc(x);
      assert x + 1 == a + n;
    } else {
      ModSmall(a);
    }
  }

  lemma ModSmall(x: u16)
    ensures x % 0x1_0000 == x
  {
    assert x == 0 * 0x1_0000 + x;
  }

  /** Incrementing a residue modulo 2^16. */
  lemma ModSucc(x: nat)
    ensures (x + 1) % 0x1_0000 == if x % 0x1_0000 == 0xFFFF then 0 else x % 0x1_0000 + 1
  {
    var q, r := x / 0x1_0000, x % 0x1_0000;
    assert x == q * 0x1_0000 + r;
    if r == 0xFFFF {
      assert x + 1 == (q + 1) * 0x1_0000;
    } else {
      assert x + 1 == q * 0x1_0000 + (r + 1);
    }
  }

  /** C's fmaxf on values that are never NaN. */
  function Max(a: real, b: real): (r: real)
    ensures r >= a && r >= b
    ensures r == a || r == b
  {
    if a >= b then a else b
  }

  /** The properties the model assumes of the C library's square root:
      for a non-negative argument it returns the non-negative root, and the
      root of zero is zero. */
  ghost predicate IsSqrt(sqrt: real -> real)
  {
    && sqrt(0.0) == 0.0
    && forall x: real :: 0.0 <= x ==> 0.0 <= sqrt(x) && sqrt(x) * sqrt(x) == x
  }

  /** Real multiplication facts the solver does not find on its own. */
  lemma PositiveSquare(m: real)
    requires 0.0 < m
    ensures 0.0 < m * m
  {
  }

  lemma CancelSquare(s: real, m: real)
    requires 0.0 < m && s * (m * m) == m * m
    ensures s == 1.0
  {
    PositiveSquare(m);
  }

  lemma DivNonNegative(a: real, n: real)
    requires 0.0 <= a && 0.0 < n
    ensures 0.0 <= a / n
  {
  }

  /** The IsSqrt properties at one argument. */
  lemma SqrtOf(sqrt: real -> real, v: real)
    requires IsSqrt(sqrt) && 0.0 <= v
    ensures 0.0 <= sqrt(v) && sqrt(v) * sqrt(v) == v
  {
  }

  /** The only non-negative square root of one is one. */
  lemma SqrtOne(sqrt: real -> real)
    requires IsSqrt(sqrt)
    ensures sqrt(1.0) == 1.0
  {
    var m := sqrt(1.0);
    SqrtOf(sqrt, 1.0);
    SquareAgainstOne(m);
    assert 0.0 <= m && m * m == 1.0;
    assert !(m < 1.0) && !(1.0 < m);
  }

  /** A non-negative number below one squares below one; above one, above one. */
  lemma SquareAgainstOne(m: real)
    ensures 0.0 <= m < 1.0 ==> m * m < 1.0
    ensures 1.0 < m ==> 1.0 < m * m
  {
    if 0.0 <= m < 1.0 {
      assert m * m <= m * 1.0;
    } else if 1.0 < m {
      assert m * 1.0 < m * m;
    }
  }

  /** Scaling by a non-negative factor preserves order. */
  lemma ScaleMonotone(k: real, a: real, b: real)
    ensures 0.0 <= k && b <= a ==> k * b <= k * a
  {
  }

  function Square(d: real): (r: real)
    ensures r >= 0.0
  {
    d * d
  }

  /** The expanded form of a sum of squared deviations from `m` over `k`
      values whose sum is `t` and whose sum of squares is `q`. */
  function ExpandedDeviation(q: real, t: real, k: real, m: real): real
  {
    q - 2.0 * m * t + k * (m * m)
  }

  /** Adding one squared deviation to the expanded form of a sum of squared
      deviations keeps it in expanded form. */
  lemma DeviationStep(dev0: real, sq0: real, sum0: real, k: real, x: real, m: real,
                      dev1: real, sq1: real, sum1: real, k1: real)
    requires dev0 == ExpandedDeviation(sq0, sum0, k, m)
    requires dev1 == dev0 + Square(x - m)
    requires sq1 == sq0 + Square(x) && sum1 == sum0 + x && k1 == k + 1.0
    ensures dev1 == ExpandedDeviation(sq1, sum1, k1, m)
  {
  }

  /** Dividing the expanded sum of squared deviations from the mean by the
      count leaves the mean square minus the squared mean. */
  lemma MomentIdentity(v: real, dev: real, q: real, s: real, m: real, n: real)
    requires n > 0.0 && m == s / n
    requires dev == ExpandedDeviation(q, s, n, m)
    requires v == dev / n
    ensures v == q / n - m * m
  {
    QuotientTimesDivisor(s, n);
    assert dev == q - n * (m * m);
    assert (q - n * (m * m)) / n == q / n - (n * (m * m)) / n;
    assert (n * (m * m)) / n == m * m;
  }

  lemma ZeroProducts(m: real)
    ensures ExpandedDeviation(0.0, 0.0, 0.0, m) == 0.0
  {
  }

  lemma QuotientTimesDivisor(s: real, n: real)
    requires n > 0.0
    ensures s == (s / n) * n
  {
  }
}

=== FILE: rep_detect.dfy ===
/** The adaptive peak detector and its calibration engine. Each exercise
    owns one Channel: its detection state, rolling window, calibration
    accumulators, repetition counter and runtime context. Exercise indices
    are natural numbers so that the source's out-of-range guards can be
    modelled; `sqrt` stands for the C library's sqrtf throughout. */
module RepDetect {
  import opened Numeric
  import opened ExerciseConfig
  import opened RollingWindow

  /** RepDetectState_t. */
  datatype DetectState = DetectState(
    lastRepTimeMs: u32,
    lastPeakTimeMs: u32,
    lastPeakValue: real,
    threshold: real,
    mean: real,
    stdDev: real,
    sampleCount: u16,
    inPeak: bool,
    peakStartTime: u32)

  /** The calibration accumulators of one exercise. */
  datatype Calib = Calib(sum: real, sumSq: real, count: u16)

  /** Everything the detector keeps for one exercise. */
  datatype Channel = Channel(
    st: DetectState,
    win: Window,
    calib: Calib,
    repCount: u16,
    ctx: RepCtx)

  datatype Detector = Detector(chans: seq<Channel>)

  /** The baseline end_calibration reports through its out-parameters. */
  datatype Baseline = Baseline(mu: real, sigma: real)

  predicate Valid(d: Detector)
  {
    && |d.chans| == EX_COUNT
    && forall ex :: 0 <= ex < |d.chans| ==> WindowValid(d.chans[ex].win)
  }

  /** Replaces the channel of one exercise. */
  function SetChan(d: Detector, ex: ExerciseId, c: Channel): (r: Detector)
    requires Valid(d) && WindowValid(c.win)
    ensures Valid(r)
    ensures r.chans[ex] == c
    ensures forall j :: 0 <= j < EX_COUNT && j != ex ==> r.chans[j] == d.chans[j]
  {
    Detector(d.chans[ex := c])
  }

  // ---------------------------------------------------------------- init

  const ZERO_STATE: DetectState := DetectState(0, 0, 0.0, 0.0, 0.0, 0.0, 0, false, 0)

  /** rep_detect_init: every exercise gets a zero detection state, an empty
      window, a zero counter and zero accumulators, and is marked
      uncalibrated. The rest of its REP_CTX entry is left as it was. */
  function Init(prior: Detector): (r: Detector)
    requires |prior.chans| == EX_COUNT
    ensures Valid(r)
    ensures forall ex :: 0 <= ex < EX_COUNT ==>
      && !r.chans[ex].ctx.calibrated
      && r.chans[ex].repCount == 0
      && r.chans[ex].calib == Calib(0.0, 0.0, 0)
      && Span(r.chans[ex].win) == 0
      && !r.chans[ex].st.inPeak
      && r.chans[ex].ctx.baselineMu == prior.chans[ex].ctx.baselineMu
      && r.chans[ex].ctx.baselineSigma == prior.chans[ex].ctx.baselineSigma
    ensures forall ex :: 0 <= ex < EX_COUNT ==>
      && r.chans[ex].st == ZERO_STATE
      && r.chans[ex].win == EmptyWindow()
      && r.chans[ex].ctx == prior.chans[ex].ctx.(calibrated := false)
  {
    Detector(seq(EX_COUNT, ex requires 0 <= ex < EX_COUNT =>
      Channel(ZERO_STATE, EmptyWindow(), Calib(0.0, 0.0, 0), 0,
              prior.chans[ex].ctx.(calibrated := false))))
  }

  /** The detector's static storage before rep_detect_init runs: all zero. */
  function PowerOn(): (d: Detector)
    ensures |d.chans| == EX_COUNT
  {
    Detector(seq(EX_COUNT, _ => Channel(ZERO_STATE, EmptyWindow(), Calib(0.0, 0.0, 0), 0, ZeroCtx())))
  }

  // --------------------------------------------------------- calibration

  /** rep_detect_begin_calibration: clears the accumulators and the warm-up
      counter and leaves the peak phase. The rolling window, the baseline and
      the counter are not touched. */
  function BeginCalibration(d: Detector, ex: nat): (r: Detector)
    requires Valid(d)
    ensures Valid(r)
    ensures ex >= EX_COUNT ==> r == d
    ensures ex < EX_COUNT ==>
      && r.chans[ex].calib == Calib(0.0, 0.0, 0)
      && r.chans[ex].st.sampleCount == 0
      && !r.chans[ex].st.inPeak
      && r.chans[ex].win == d.chans[ex].win
      && r.chans[ex].ctx == d.chans[ex].ctx
      && r.chans[ex].repCount == d.chans[ex].repCount
      && r.chans[ex].st.threshold == d.chans[ex].st.threshold
      && r.chans[ex].st.lastRepTimeMs == d.chans[ex].st.lastRepTimeMs
      && r.chans[ex].st.lastPeakTimeMs == d.chans[ex].st.lastPeakTimeMs
    ensures ex < EX_COUNT ==>
      r.chans[ex] == d.chans[ex].(calib := Calib(0.0, 0.0, 0), st := d.chans[ex].st.(sampleCount := 0, inPeak := false))
    ensures forall j :: 0 <= j < EX_COUNT && j != ex ==> r.chans[j] == d.chans[j]
  {
    if ex >= EX_COUNT then d
    else
      var c := d.chans[ex];
      SetChan(d, ex, c.(calib := Calib(0.0, 0.0, 0), st := c.st.(sampleCount := 0, inPeak := false)))
  }

  /** rep_detect_accumulate_calibration: folds one sample into the running
      sum, sum of squares and (uint16) count. */
  function Accumulate(d: Detector, ex: nat, x: real): (r: Detector)
    requires Valid(d)
    ensures Valid(r)
    ensures ex >= EX_COUNT ==> r == d
    ensures ex < EX_COUNT ==>
      && r.chans[ex].calib.sum == d.chans[ex].calib.sum + x
      && r.chans[ex].calib.sumSq == d.chans[ex].calib.sumSq + Square(x)
      && r.chans[ex].calib.count == Inc16(d.chans[ex].calib.count)
      && r.chans[ex] == d.chans[ex].(calib := r.chans[ex].calib)
    ensures forall j :: 0 <= j < EX_COUNT && j != ex ==> r.chans[j] == d.chans[j]
  {
    if ex >= EX_COUNT then d
    else
      var c := d.chans[ex];
      SetChan(d, ex, c.(calib := Calib(c.calib.sum + x, c.calib.sumSq + Square(x), Inc16(c.calib.count))))
  }

  /** Folds a sequence of samples, in order. */
  function AccumulateAll(d: Detector, ex: nat, xs: seq<real>): (r: Detector)
    requires Valid(d)
    ensures Valid(r)
    decreases |xs|
  {
    if |xs| == 0 then d else AccumulateAll(Accumulate(d, ex, xs[0]), ex, xs[1..])
  }

  /** The mean end_calibration derives from the accumulators. */
  function CalibMean(cal: Calib): real
    requires cal.count > 0
  {
    cal.sum / (cal.count as real)
  }

  /** The variance end_calibration derives from the accumulators: the mean
      of the squares minus the square of the mean. */
  function CalibVariance(cal: Calib): real
    requires cal.count > 0
  {
    cal.sumSq / (cal.count as real) - CalibMean(cal) * CalibMean(cal)
  }

  /** rep_detect_end_calibration. With no accumulated sample (or an
      out-of-range index) nothing happens and no baseline is reported.
      Otherwise mu = sum/n, variance = sum_sq/n - mu^2, sigma =
      sqrt(max(variance, 0)); the stored baseline sigma is floored, the
      reported one is not. The accumulators are left as they were. */
  function EndCalibration(d: Detector, ex: nat, sqrt: real -> real): (r: (Detector, Option<Baseline>))
    requires Valid(d)
    ensures Valid(r.0)
    ensures ex >= EX_COUNT || d.chans[ex].calib.count == 0 <==> r.1.None?
    ensures r.1.None? ==> r.0 == d
    ensures r.1.Some? ==>
      && ex < EX_COUNT
      && var c := d.chans[ex];
      && var b := r.1.value;
      && b.mu == CalibMean(c.calib)
      && b.sigma == sqrt(Max(CalibVariance(c.calib), 0.0))
      && r.0.chans[ex].ctx.calibrated
      && r.0.chans[ex].ctx.baselineMu == b.mu
      && r.0.chans[ex].ctx.baselineSigma == Max(b.sigma, MIN_SIGMA_FLOOR_G)
      && r.0.chans[ex].ctx.baselineSigma >= MIN_SIGMA_FLOOR_G
      && r.0.chans[ex] == c.(ctx := r.0.chans[ex].ctx)
      && r.0.chans[ex].ctx.rollingMu == c.ctx.rollingMu
      && r.0.chans[ex].ctx.rollingSigma == c.ctx.rollingSigma
      && r.0.chans[ex].ctx.lastPeakMs == c.ctx.lastPeakMs
    ensures forall j :: 0 <= j < EX_COUNT && j != ex ==> r.0.chans[j] == d.chans[j]
  {
    if ex >= EX_COUNT || d.chans[ex].calib.count == 0 then (d, None)
    else
      var c := d.chans[ex];
      var mu := CalibMean(c.calib);
      var sigma := sqrt(Max(CalibVariance(c.calib), 0.0));
      var ctx := c.ctx.(baselineMu := mu, baselineSigma := Max(sigma, MIN_SIGMA_FLOOR_G), calibrated := true);
      (SetChan(d, ex, c.(ctx := ctx)), Some(Baseline(mu, sigma)))
  }

  /** Ending calibration twice in a row gives the same state and the same
      reported baseline, because the accumulators are not cleared. */
  lemma EndCalibrationIdempotent(d: Detector, ex: nat, sqrt: real -> real)
    requires Valid(d)
    ensures EndCalibration(EndCalibration(d, ex, sqrt).0, ex, sqrt) == EndCalibration(d, ex, sqrt)
  {
    var (d1, b1) := EndCalibration(d, ex, sqrt);
    if b1.Some? {
      assert d1.chans[ex].calib == d.chans[ex].calib;
      assert Detector(d1.chans[ex := d1.chans[ex].(ctx := d1.chans[ex].ctx)]) == d1;
    }
  }

  /** The reported sigma is a genuine root of the clamped variance. */
  lemma ReportedSigmaIsRoot(d: Detector, ex: nat, sqrt: real -> real)
    requires Valid(d) && IsSqrt(sqrt)
    requires EndCalibration(d, ex, sqrt).1.Some?
    ensures var b := EndCalibration(d, ex, sqrt).1.value;
      var c := d.chans[ex].calib;
      && b.sigma >= 0.0
      && b.sigma * b.sigma == Max(CalibVariance(c), 0.0)
  {
    SqrtOf(sqrt, Max(CalibVariance(d.chans[ex].calib), 0.0));
  }

  /** Starting from begin_calibration, accumulating a batch of fewer than
      65536 samples leaves the accumulators holding exactly their count,
      sum and sum of squares. */
  lemma {:induction false} AccumulateAllSums(d: Detector, ex: ExerciseId, xs: seq<real>)
    requires Valid(d)
    requires d.chans[ex].calib.count + |xs| < U16_MOD
    ensures AccumulateAll(d, ex, xs).chans[ex].calib ==
      Calib(d.chans[ex].calib.sum + Sum(xs), d.chans[ex].calib.sumSq + SumSq(xs), d.chans[ex].calib.count + |xs|)
    ensures forall j :: 0 <= j < EX_COUNT && j != ex ==> AccumulateAll(d, ex, xs).chans[j] == d.chans[j]
    ensures AccumulateAll(d, ex, xs).chans[ex] == d.chans[ex].(calib := AccumulateAll(d, ex, xs).chans[ex].calib)
    decreases |xs|
  {
    if |xs| > 0 {
      var d1 := Accumulate(d, ex, xs[0]);
      AccumulateAllSums(d1, ex, xs[1..]);
      SumFront(xs);
      SumSqFront(xs);
    }
  }

  /** Sum and SumSq peel off the first element as well as the last. */
  lemma {:induction false} SumFront(xs: seq<real>)
    requires |xs| > 0
    ensures Sum(xs) == xs[0] + Sum(xs[1..])
    decreases |xs|
  {
    if |xs| > 1 {
      var init := xs[..|xs| - 1];
      SumFront(init);
      assert init[1..] == xs[1..][..|xs[1..]| - 1];
      assert init[0] == xs[0];
    } else {
      assert xs[..|xs| - 1] == [];
      assert xs[1..] == [];
    }
  }

  lemma {:induction false} SumSqFront(xs: seq<real>)
    requires |xs| > 0
    ensures SumSq(xs) == Square(xs[0]) + SumSq(xs[1..])
    decreases |xs|
  {
    if |xs| > 1 {
      var init := xs[..|xs| - 1];
      SumSqFront(init);
      assert init[1..] == xs[1..][..|xs[1..]| - 1];
      assert init[0] == xs[0];
    } else {
      assert xs[..|xs| - 1] == [];
      assert xs[1..] == [];
    }
  }

  /** A calibration window of samples xs (begin, accumulate each, end)
      reports the population mean and population standard deviation of xs,
      commits the mean and the floored deviation as the baseline and marks
      the exercise calibrated. The clamp of the variance at zero never bites:
      the moment formula equals the population variance. The window, the
      counter and every other exercise are untouched. */
  lemma CalibrationWindow(d: Detector, ex: ExerciseId, xs: seq<real>, sqrt: real -> real)
    requires Valid(d)
    requires 0 < |xs| < U16_MOD
    ensures var (d', b) := EndCalibration(AccumulateAll(BeginCalibration(d, ex), ex, xs), ex, sqrt);
      && b == Some(Baseline(Mean(xs), StdDev(xs, sqrt)))
      && d'.chans[ex].ctx.calibrated
      && d'.chans[ex].ctx.baselineMu == Mean(xs)
      && d'.chans[ex].ctx.baselineSigma == Max(StdDev(xs, sqrt), MIN_SIGMA_FLOOR_G)
      && d'.chans[ex].win == d.chans[ex].win
      && d'.chans[ex].repCount == d.chans[ex].repCount
      && forall j :: 0 <= j < EX_COUNT && j != ex ==> d'.chans[j] == d.chans[j]
  {
    var d0 := BeginCalibration(d, ex);
    AccumulateAllSums(d0, ex, xs);
    CalibMoments(AccumulateAll(d0, ex, xs).chans[ex].calib, xs);
  }

  /** Accumulators holding exactly the count, sum and sum of squares of xs
      yield the population mean and variance of xs. */
  lemma CalibMoments(cal: Calib, xs: seq<real>)
    requires 0 < |xs| < U16_MOD
    requires cal == Calib(Sum(xs), SumSq(xs), |xs|)
    ensures CalibMean(cal) == Mean(xs)
    ensures CalibVariance(cal) == Variance(xs)
    ensures Max(CalibVariance(cal), 0.0) == Variance(xs)
  {
    var n := |xs| as real;
    assert CalibMean(cal) == Mean(xs);
    assert CalibVariance(cal) == SumSq(xs) / n - Mean(xs) * Mean(xs);
    VarianceByMoments(xs);
  }

  // ----------------------------------------------------- rolling stats

  /** The dynamic threshold: the baseline mean plus k times the largest of
      the rolling deviation, the baseline deviation and the floor. */
  function Threshold(ctx: RepCtx, k: real, rollingStd: real): (t: real)
    ensures k >= 0.0 ==>
      && t >= ctx.baselineMu + k * MIN_SIGMA_FLOOR_G
      && t >= ctx.baselineMu + k * rollingStd
      && t >= ctx.baselineMu + k * ctx.baselineSigma
  {
    var sigma := Max(rollingStd, Max(ctx.baselineSigma, MIN_SIGMA_FLOOR_G));
    ScaleMonotone(k, sigma, MIN_SIGMA_FLOOR_G);
    ScaleMonotone(k, sigma, rollingStd);
    ScaleMonotone(k, sigma, ctx.baselineSigma);
    ctx.baselineMu + k * sigma
  }

  /** With a non-negative multiplier the threshold sits at least k deviations
      above the baseline mean for each of the three deviations, and equals
      one of the three. */
  lemma ThresholdBounds(ctx: RepCtx, k: real, rollingStd: real)
    requires k >= 0.0
    ensures Threshold(ctx, k, rollingStd) >= ctx.baselineMu + k * MIN_SIGMA_FLOOR_G
    ensures Threshold(ctx, k, rollingStd) >= ctx.baselineMu + k * rollingStd
    ensures Threshold(ctx, k, rollingStd) >= ctx.baselineMu + k * ctx.baselineSigma
    ensures Threshold(ctx, k, rollingStd) == ctx.baselineMu + k * rollingStd
         || Threshold(ctx, k, rollingStd) == ctx.baselineMu + k * ctx.baselineSigma
         || Threshold(ctx, k, rollingStd) == ctx.baselineMu + k * MIN_SIGMA_FLOOR_G
  {
    var sigma := Max(rollingStd, Max(ctx.baselineSigma, MIN_SIGMA_FLOOR_G));
    ScaleMonotone(k, sigma, MIN_SIGMA_FLOOR_G);
    ScaleMonotone(k, sigma, rollingStd);
    ScaleMonotone(k, sigma, ctx.baselineSigma);
  }

  /** update_rolling_stats: pushes the sample, recomputes the rolling mean
      and deviation over the window's span, publishes them in the runtime
      context and recomputes the threshold. */
  function RefreshStats(c: Channel, cfg: Profile, sample: real, sqrt: real -> real): (r: Channel)
    requires WindowValid(c.win)
    ensures WindowValid(r.win)
    ensures r.win == Push(c.win, sample)
    ensures r.st.mean == Mean(Contents(r.win)) == r.ctx.rollingMu
    ensures r.st.stdDev == StdDev(Contents(r.win), sqrt) == r.ctx.rollingSigma
    ensures r.st.threshold == Threshold(c.ctx, cfg.threshK, r.st.stdDev)
    ensures r.st == c.st.(mean := r.st.mean, stdDev := r.st.stdDev, threshold := r.st.threshold)
    ensures r.ctx == c.ctx.(rollingMu := r.ctx.rollingMu, rollingSigma := r.ctx.rollingSigma)
    ensures r.calib == c.calib && r.repCount == c.repCount
  {
    var w := Push(c.win, sample);
    var s := Contents(w);
    var mean := Mean(s);
    var std := StdDev(s, sqrt);
    var thr := Threshold(c.ctx, cfg.threshK, std);
    Channel(c.st.(mean := mean, stdDev := std, threshold := thr), w, c.calib, c.repCount,
            c.ctx.(rollingMu := mean, rollingSigma := std))
  }

  // ------------------------------------------------------- peak machine

  /** The rep criteria checked when a peak ends at `now`: it lasted at least
      the minimum interval, its extreme cleared the threshold by the
      exercise's prominence, and the previous peak ended at least the
      minimum interval ago. */
  function RepQualifies(st: DetectState, cfg: Profile, peak: real, now: u32): (q: bool)
    // A qualifying peak cannot end at the instant it started or at the
    // instant the previous peak ended, and with a positive prominence its
    // extreme lies strictly above the threshold.
    ensures q ==> now != st.peakStartTime && now != st.lastPeakTimeMs
    ensures q && cfg.minProminenceG > 0.0 ==> peak > st.threshold
  {
    && Sub32(now, st.peakStartTime) >= MIN_PEAK_INTERVAL_MS
    && peak >= st.threshold + cfg.minProminenceG
    && Sub32(now, st.lastPeakTimeMs) >= MIN_PEAK_INTERVAL_MS
  }

  /** The Idle/InPeak machine of rep_detect_update, run once the warm-up and
      refractory gates have passed. Returns the new state and whether a rep
      was counted. */
  function PeakStep(st: DetectState, cfg: Profile, sample: real, now: u32): (r: (DetectState, bool))
    // Idle -> InPeak exactly on a strict rise above the threshold.
    ensures !st.inPeak ==> (r.0.inPeak <==> sample > st.threshold)
    ensures !st.inPeak && r.0.inPeak ==> r.0.peakStartTime == now && r.0.lastPeakValue == sample
    // InPeak -> Idle exactly on a strict fall below the threshold.
    ensures st.inPeak ==> (r.0.inPeak <==> !(sample < st.threshold))
    // While in a peak the extreme tracks the largest sample seen.
    ensures st.inPeak ==> r.0.lastPeakValue == Max(st.lastPeakValue, sample)
    ensures st.inPeak ==> r.0.peakStartTime == st.peakStartTime
    // A rep is counted exactly when a peak ends and meets the criteria.
    ensures r.1 <==> st.inPeak && sample < st.threshold && RepQualifies(st, cfg, Max(st.lastPeakValue, sample), now)
    ensures r.0.lastRepTimeMs == if r.1 then now else st.lastRepTimeMs
    // Every peak end is stamped, counted or not.
    ensures r.0.lastPeakTimeMs == if st.inPeak && !r.0.inPeak then now else st.lastPeakTimeMs
    // The statistics and the warm-up counter belong to other steps.
    ensures r.0.threshold == st.threshold && r.0.mean == st.mean && r.0.stdDev == st.stdDev
    ensures r.0.sampleCount == st.sampleCount
    // An idle step that stays idle changes nothing.
    ensures !st.inPeak && !r.0.inPeak ==> r.0 == st
  {
    if !st.inPeak then
      if sample > st.threshold then
        (st.(inPeak := true, peakStartTime := now, lastPeakValue := sample), false)
      else
        (st, false)
    else
      var peak := if sample > st.lastPeakValue then sample else st.lastPeakValue;
      if sample < st.threshold then
        var counted := RepQualifies(st, cfg, peak, now);
        (st.(lastPeakValue := peak, inPeak := false,
             lastRepTimeMs := if counted then now else st.lastRepTimeMs,
             lastPeakTimeMs := now), counted)
      else
        (st.(lastPeakValue := peak), false)
  }

  /** One rep_detect_update call on a calibrated exercise's channel: the
      window always advances; then the warm-up gate, the refractory gate and
      the peak machine, in that order. */
  function ChannelUpdate(c: Channel, cfg: Profile, sample: real, now: u32, sqrt: real -> real): (r: (Channel, bool))
    requires WindowValid(c.win)
    ensures WindowValid(r.0.win)
    ensures r.0.win == Push(c.win, sample)
    ensures r.0.calib == c.calib
    ensures r.0.ctx == RefreshStats(c, cfg, sample, sqrt).ctx
    // The statistics and threshold are refreshed on every call, gated or not.
    ensures var st1 := RefreshStats(c, cfg, sample, sqrt).st;
      r.0.st.threshold == st1.threshold && r.0.st.mean == st1.mean && r.0.st.stdDev == st1.stdDev
    // Warm-up: the first ROLLING_BUFFER_SIZE updates only fill the window.
    ensures c.st.sampleCount < ROLLING_BUFFER_SIZE ==>
      && !r.1
      && r.0.st.sampleCount == c.st.sampleCount + 1
      && r.0.repCount == c.repCount
      && r.0.st.inPeak == c.st.inPeak
      && r.0.st.peakStartTime == c.st.peakStartTime
      && r.0.st.lastPeakValue == c.st.lastPeakValue
      && r.0.st.lastRepTimeMs == c.st.lastRepTimeMs
      && r.0.st.lastPeakTimeMs == c.st.lastPeakTimeMs
    ensures c.st.sampleCount >= ROLLING_BUFFER_SIZE ==> r.0.st.sampleCount == c.st.sampleCount
    ensures c.st.sampleCount <= ROLLING_BUFFER_SIZE ==> r.0.st.sampleCount <= ROLLING_BUFFER_SIZE
    // Refractory: inside the refractory period the peak machine is not run.
    ensures c.st.sampleCount >= ROLLING_BUFFER_SIZE && Sub32(now, c.st.lastRepTimeMs) < cfg.refractoryMs ==>
      && !r.1
      && r.0.repCount == c.repCount
      && r.0.st.inPeak == c.st.inPeak
      && r.0.st.peakStartTime == c.st.peakStartTime
      && r.0.st.lastPeakValue == c.st.lastPeakValue
      && r.0.st.lastRepTimeMs == c.st.lastRepTimeMs
      && r.0.st.lastPeakTimeMs == c.st.lastPeakTimeMs
    // The counter moves by one exactly when a rep is reported.
    ensures r.0.repCount == if r.1 then Inc16(c.repCount) else c.repCount
    ensures r.0.st.lastRepTimeMs == if r.1 then now else c.st.lastRepTimeMs
    // A reported rep passed every gate and every criterion.
    ensures r.1 ==>
      && c.st.sampleCount >= ROLLING_BUFFER_SIZE
      && Sub32(now, c.st.lastRepTimeMs) >= cfg.refractoryMs
      && c.st.inPeak
      && sample < r.0.st.threshold
      && Sub32(now, c.st.peakStartTime) >= MIN_PEAK_INTERVAL_MS
      && Max(c.st.lastPeakValue, sample) >= r.0.st.threshold + cfg.minProminenceG
      && Sub32(now, c.st.lastPeakTimeMs) >= MIN_PEAK_INTERVAL_MS
    // Past both gates the peak machine runs on the refreshed statistics, so
    // every qualifying peak end is reported.
    ensures c.st.sampleCount >= ROLLING_BUFFER_SIZE && Sub32(now, c.st.lastRepTimeMs) >= cfg.refractoryMs ==>
      (r.0.st, r.1) == PeakStep(RefreshStats(c, cfg, sample, sqrt).st, cfg, sample, now)
    ensures c.st.sampleCount >= ROLLING_BUFFER_SIZE && Sub32(now, c.st.lastRepTimeMs) >= cfg.refractoryMs ==>
      (r.1 <==> c.st.inPeak && sample < r.0.st.threshold
                && RepQualifies(RefreshStats(c, cfg, sample, sqrt).st, cfg, Max(c.st.lastPeakValue, sample), now))
  {
    var c1 := RefreshStats(c, cfg, sample, sqrt);
    if c1.st.sampleCount < ROLLING_BUFFER_SIZE then
      (c1.(st := c1.st.(sampleCount := c1.st.sampleCount + 1)), false)
    else if Sub32(now, c1.st.lastRepTimeMs) < cfg.refractoryMs then
      (c1, false)
    else
      var (st', hit) := PeakStep(c1.st, cfg, sample, now);
      (c1.(st := st', repCount := if hit then Inc16(c1.repCount) else c1.repCount), hit)
  }

  /** rep_detect_update. An out-of-range or uncalibrated exercise returns
      false and changes nothing at all, not even its window. Otherwise only
      that exercise's channel changes. */
  function Update(d: Detector, ex: nat, sample: real, now: u32, sqrt: real -> real): (r: (Detector, bool))
    requires Valid(d)
    ensures Valid(r.0)
    ensures ex >= EX_COUNT || !d.chans[ex].ctx.calibrated ==> r == (d, false)
    ensures forall j :: 0 <= j < EX_COUNT && j != ex ==> r.0.chans[j] == d.chans[j]
    ensures ex < EX_COUNT ==> r.0.chans[ex].ctx.calibrated == d.chans[ex].ctx.calibrated
    ensures r.1 ==> ex < EX_COUNT && r.0.chans[ex].repCount == Inc16(d.chans[ex].repCount)
    ensures !r.1 && ex < EX_COUNT ==> r.0.chans[ex].repCount == d.chans[ex].repCount
    // A calibrated exercise's channel takes exactly one channel step, whose
    // report is the call's result.
    ensures ex < EX_COUNT && d.chans[ex].ctx.calibrated ==>
      (r.0.chans[ex], r.1) == ChannelUpdate(d.chans[ex], Cfg(ex), sample, now, sqrt)
  {
    if ex >= EX_COUNT || !d.chans[ex].ctx.calibrated then (d, false)
    else
      var (c', hit) := ChannelUpdate(d.chans[ex], Cfg(ex), sample, now, sqrt);
      (SetChan(d, ex, c'), hit)
  }

  /** rep_detect_get_count: zero for an out-of-range exercise. */
  function GetCount(d: Detector, ex: nat): (n: u16)
    requires Valid(d)
    ensures ex >= EX_COUNT ==> n == 0
    ensures ex < EX_COUNT ==> n == d.chans[ex].repCount
  {
    if ex >= EX_COUNT then 0 else d.chans[ex].repCount
  }

  /** rep_detect_get_state: a copy of one exercise's detection state. An
      out-of-range index or a missing destination leaves the destination as
      it was. */
  function GetState(d: Detector, ex: nat, dest: Option<DetectState>): (r: Option<DetectState>)
    requires Valid(d)
    ensures ex >= EX_COUNT || dest.None? ==> r == dest
    ensures ex < EX_COUNT && dest.Some? ==> r == Some(d.chans[ex].st)
  {
    if ex >= EX_COUNT || dest.None? then dest else Some(d.chans[ex].st)
  }

  /** rep_detect_reset_count: zeroes the counter and both timestamp gates of
      one exercise; its window, baseline, accumulators and peak phase are
      untouched, and so is every other exercise. */
  function ResetCount(d: Detector, ex: nat): (r: Detector)
    requires Valid(d)
    ensures Valid(r)
    ensures ex >= EX_COUNT ==> r == d
    ensures ex < EX_COUNT ==>
      && GetCount(r, ex) == 0
      && r.chans[ex].st.lastRepTimeMs == 0
      && r.chans[ex].st.lastPeakTimeMs == 0
      && r.chans[ex].win == d.chans[ex].win
      && r.chans[ex].calib == d.chans[ex].calib
      && r.chans[ex].ctx == d.chans[ex].ctx
      && r.chans[ex].st.inPeak == d.chans[ex].st.inPeak
      && r.chans[ex].st.sampleCount == d.chans[ex].st.sampleCount
      && r.chans[ex].st.threshold == d.chans[ex].st.threshold
      && r.chans[ex].st.peakStartTime == d.chans[ex].st.peakStartTime
      && r.chans[ex].st.lastPeakValue == d.chans[ex].st.lastPeakValue
      && r.chans[ex].st.mean == d.chans[ex].st.mean
      && r.chans[ex].st.stdDev == d.chans[ex].st.stdDev
    // The whole channel: only the counter and the two timestamps change.
    ensures ex < EX_COUNT ==>
      r.chans[ex] == d.chans[ex].(repCount := 0, st := d.chans[ex].st.(lastRepTimeMs := 0, lastPeakTimeMs := 0))
    ensures forall j :: 0 <= j < EX_COUNT && j != ex ==> r.chans[j] == d.chans[j]
  {
    if ex >= EX_COUNT then d
    else
      var c := d.chans[ex];
      SetChan(d, ex, c.(repCount := 0, st := c.st.(lastRepTimeMs := 0, lastPeakTimeMs := 0)))
  }

  // -------------------------------------------------------------- runs

  /** One call of rep_detect_update: the scalar sample and the tick at
      which it is processed. */
  datatype Input = Input(sample: real, now: u32)

  /** Feeds a sequence of samples to one exercise, collecting the return
      value of every call. */
  function Run(d: Detector, ex: nat, inputs: seq<Input>, sqrt: real -> real): (r: (Detector, seq<bool>))
    requires Valid(d)
    ensures Valid(r.0)
    ensures |r.1| == |inputs|
    ensures forall j :: 0 <= j < EX_COUNT && j != ex ==> r.0.chans[j] == d.chans[j]
    decreases |inputs|
  {
    if |inputs| == 0 then (d, [])
    else
      var (d0, hits) := Run(d, ex, inputs[..|inputs| - 1], sqrt);
      var (d1, hit) := Update(d0, ex, inputs[|inputs| - 1].sample, inputs[|inputs| - 1].now, sqrt);
      (d1, hits + [hit])
  }

  /** The number of true entries. */
  function CountTrue(hits: seq<bool>): (n: nat)
    ensures n <= |hits|
  {
    if |hits| == 0 then 0 else CountTrue(hits[..|hits| - 1]) + (if hits[|hits| - 1] then 1 else 0)
  }

  /** The return values of a run's prefix are the prefix of its return values. */
  lemma {:induction false} RunPrefix(d: Detector, ex: nat, inputs: seq<Input>, sqrt: real -> real, k: nat)
    requires Valid(d) && k <= |inputs|
    ensures Run(d, ex, inputs[..k], sqrt).1 == Run(d, ex, inputs, sqrt).1[..k]
    decreases |inputs|
  {
    if k < |inputs| {
      var init := inputs[..|inputs| - 1];
      RunPrefix(d, ex, init, sqrt, k);
      assert init[..k] == inputs[..k];
    } else {
      assert inputs[..k] == inputs;
    }
  }

  /** The counter of the exercise is its starting value incremented once
      (as a uint16_t) for every call that reported a rep. */
  lemma {:induction false} CountTracksReps(d: Detector, ex: ExerciseId, inputs: seq<Input>, sqrt: real -> real)
    requires Valid(d)
    ensures Run(d, ex, inputs, sqrt).0.chans[ex].repCount == Inc16Times(d.chans[ex].repCount, CountTrue(Run(d, ex, inputs, sqrt).1))
    decreases |inputs|
  {
    if |inputs| > 0 {
      var init := inputs[..|inputs| - 1];
      CountTracksReps(d, ex, init, sqrt);
      var r0 := Run(d, ex, init, sqrt);
      var r := Run(d, ex, inputs, sqrt);
      RunLastCounter(d, ex, inputs, sqrt);
      var h := r.1[|inputs| - 1];
      CountTrueSnoc(r0.1, h);
      CountStep(d.chans[ex].repCount, r0.0.chans[ex].repCount, r.0.chans[ex].repCount, CountTrue(r0.1), CountTrue(r.1), h);
    } else {
      assert Run(d, ex, inputs, sqrt) == (d, []);
    }
  }

  /** The last call of a run extends the return values by one entry and
      moves the counter by one exactly when that entry is true. */
  lemma RunLastCounter(d: Detector, ex: ExerciseId, inputs: seq<Input>, sqrt: real -> real)
    requires Valid(d) && |inputs| > 0
    ensures var r0 := Run(d, ex, inputs[..|inputs| - 1], sqrt);
      var r := Run(d, ex, inputs, sqrt);
      && r.1 == r0.1 + [r.1[|inputs| - 1]]
      && r.0.chans[ex].repCount == if r.1[|inputs| - 1] then Inc16(r0.0.chans[ex].repCount) else r0.0.chans[ex].repCount
  {
    var r0 := Run(d, ex, inputs[..|inputs| - 1], sqrt);
    var last := inputs[|inputs| - 1];
    UpdateCounter(r0.0, ex, last.sample, last.now, sqrt);
  }

  /** rep_detect_update moves the exercise's counter by one exactly when it
      reports a rep. */
  lemma UpdateCounter(d: Detector, ex: ExerciseId, sample: real, now: u32, sqrt: real -> real)
    requires Valid(d)
    ensures var u := Update(d, ex, sample, now, sqrt);
      u.0.chans[ex].repCount == if u.1 then Inc16(d.chans[ex].repCount) else d.chans[ex].repCount
  {
  }

  /** The counter and the number of reported reps move together over one
      call. */
  lemma CountStep(start: u16, c0: u16, c1: u16, n0: nat, n1: nat, h: bool)
    requires c0 == Inc16Times(start, n0)
    requires n1 == n0 + (if h then 1 else 0)
    requires c1 == if h then Inc16(c0) else c0
    ensures c1 == Inc16Times(start, n1)
  {
  }

  lemma CountTrueSnoc(hits: seq<bool>, h: bool)
    ensures CountTrue(hits + [h]) == CountTrue(hits) + (if h then 1 else 0)
  {
    assert (hits + [h])[..|hits|] == hits;
  }

  /** Warm-up: while the warm-up counter has room for every sample of a run,
      the run reports no rep and leaves the counter where it was. */
  lemma {:induction false} WarmUpSilent(d: Detector, ex: ExerciseId, inputs: seq<Input>, sqrt: real -> real)
    requires Valid(d)
    requires d.chans[ex].st.sampleCount + |inputs| <= ROLLING_BUFFER_SIZE
    ensures forall i :: 0 <= i < |inputs| ==> !Run(d, ex, inputs, sqrt).1[i]
    ensures Run(d, ex, inputs, sqrt).0.chans[ex].repCount == d.chans[ex].repCount
    ensures Run(d, ex, inputs, sqrt).0.chans[ex].st.sampleCount <= d.chans[ex].st.sampleCount + |inputs|
    decreases |inputs|
  {
    if |inputs| > 0 {
      var init := inputs[..|inputs| - 1];
      WarmUpSilent(d, ex, init, sqrt);
    }
  }

  /** After begin_calibration, the first ROLLING_BUFFER_SIZE updates of that
      exercise never report a rep, whatever the samples and times. */
  lemma WarmUpAfterCalibrationStart(d: Detector, ex: ExerciseId, inputs: seq<Input>, sqrt: real -> real)
    requires Valid(d)
    requires |inputs| <= ROLLING_BUFFER_SIZE
    ensures forall i :: 0 <= i < |inputs| ==> !Run(BeginCalibration(d, ex), ex, inputs, sqrt).1[i]
  {
    WarmUpSilent(BeginCalibration(d, ex), ex, inputs, sqrt);
  }

  /** After a run, the exercise's last-rep time is the time of the last call
      that reported a rep. */
  lemma {:induction false} LastRepIsLastHit(d: Detector, ex: ExerciseId, inputs: seq<Input>, sqrt: real -> real, k: nat)
    requires Valid(d)
    requires k < |inputs| && Run(d, ex, inputs, sqrt).1[k]
    requires forall m :: k < m < |inputs| ==> !Run(d, ex, inputs, sqrt).1[m]
    ensures Run(d, ex, inputs, sqrt).0.chans[ex].st.lastRepTimeMs == inputs[k].now
    decreases |inputs|
  {
    var n := |inputs|;
    var init := inputs[..n - 1];
    var (d0, hits0) := Run(d, ex, init, sqrt);
    var (d1, hits) := Run(d, ex, inputs, sqrt);
    assert hits[..n - 1] == hits0;
    if k < n - 1 {
      LastRepIsLastHit(d, ex, init, sqrt, k);
      assert !hits[n - 1];
    }
  }

  /** Refractory period: two consecutive reported reps of one exercise are
      at least its refractory period apart on the (wrapping) tick counter. */
  lemma RefractorySpacing(d: Detector, ex: ExerciseId, inputs: seq<Input>, sqrt: real -> real, i: nat, j: nat)
    requires Valid(d)
    requires i < j < |inputs|
    requires Run(d, ex, inputs, sqrt).1[i] && Run(d, ex, inputs, sqrt).1[j]
    requires forall m :: i < m < j ==> !Run(d, ex, inputs, sqrt).1[m]
    ensures Sub32(inputs[j].now, inputs[i].now) >= Cfg(ex).refractoryMs
  {
    var pre := inputs[..j];
    RunPrefix(d, ex, inputs, sqrt, j);
    LastRepIsLastHit(d, ex, pre, sqrt, i);
    var pre1 := inputs[..j + 1];
    RunPrefix(d, ex, inputs, sqrt, j + 1);
    assert pre1[..j] == pre;
    assert Run(d, ex, pre1, sqrt).1[j];
  }
}

=== FILE: rolling_window.dfy ===
/** The 100-slot circular buffer each exercise keeps of its most recent
    scalar samples, and the mean and population standard deviation the
    detector recomputes from it after every push. */
module RollingWindow {
  import opened Numeric

  const ROLLING_BUFFER_SIZE: nat := 100

  /** `buf` is the sample buffer, `index` the next slot to write and
      `filled` whether the index has wrapped at least once. */
  datatype Window = Window(buf: seq<real>, index: nat, filled: bool)

  predicate WindowValid(w: Window)
  {
    |w.buf| == ROLLING_BUFFER_SIZE && w.index < ROLLING_BUFFER_SIZE
  }

  /** How many leading slots the statistics read: every slot once the buffer
      has wrapped, otherwise the slots written so far. */
  function Span(w: Window): (n: nat)
    requires WindowValid(w)
    ensures n <= ROLLING_BUFFER_SIZE
  {
    if w.filled then ROLLING_BUFFER_SIZE else w.index
  }

  /** The slots the statistics read. */
  function Contents(w: Window): (s: seq<real>)
    requires WindowValid(w)
    ensures |s| == Span(w)
  {
    w.buf[..Span(w)]
  }

  /** The buffer as rep_detect_init leaves it: all zero, nothing written. */
  function EmptyWindow(): (w: Window)
    ensures WindowValid(w) && Span(w) == 0
    ensures forall i :: 0 <= i < |w.buf| ==> w.buf[i] == 0.0
  {
    Window(seq(ROLLING_BUFFER_SIZE, _ => 0.0), 0, false)
  }

  /** Writes one sample at the write index and advances the index modulo
      the capacity; the buffer counts as filled once the index wraps to 0. */
  function Push(w: Window, x: real): (r: Window)
    requires WindowValid(w)
    ensures WindowValid(r)
    ensures r.buf[w.index] == x
    ensures forall i :: 0 <= i < ROLLING_BUFFER_SIZE && i != w.index ==> r.buf[i] == w.buf[i]
    ensures r.index == if w.index + 1 == ROLLING_BUFFER_SIZE then 0 else w.index + 1
    ensures w.filled ==> r.filled
    ensures r.filled <==> w.filled || r.index == 0
    ensures Span(r) == if Span(w) < ROLLING_BUFFER_SIZE then Span(w) + 1 else ROLLING_BUFFER_SIZE
    ensures Span(r) >= 1
  {
    var next := if w.index + 1 == ROLLING_BUFFER_SIZE then 0 else w.index + 1;
    Window(w.buf[w.index := x], next, w.filled || next == 0)
  }

  /** Pushes the samples in order. */
  function PushAll(w: Window, xs: seq<real>): (r: Window)
    requires WindowValid(w)
    ensures WindowValid(r)
    decreases |xs|
  {
    if |xs| == 0 then w else PushAll(Push(w, xs[0]), xs[1..])
  }

  /** Until the buffer wraps, it holds exactly the samples pushed since
      initialisation, in order, and the statistics span all of them. */
  lemma {:induction false} PushAllFromEmpty(xs: seq<real>)
    requires |xs| < ROLLING_BUFFER_SIZE
    ensures PushAll(EmptyWindow(), xs).index == |xs|
    ensures !PushAll(EmptyWindow(), xs).filled
    ensures Contents(PushAll(EmptyWindow(), xs)) == xs
  {
    PushAllPrefix(EmptyWindow(), xs);
  }

  lemma {:induction false} PushAllPrefix(w: Window, xs: seq<real>)
    requires WindowValid(w) && !w.filled
    requires w.index + |xs| < ROLLING_BUFFER_SIZE
    ensures PushAll(w, xs).index == w.index + |xs|
    ensures !PushAll(w, xs).filled
    ensures PushAll(w, xs).buf[..w.index + |xs|] == w.buf[..w.index] + xs
    decreases |xs|
  {
    if |xs| == 0 {
      assert w.buf[..w.index] + xs == w.buf[..w.index];
    } else {
      var w1 := Push(w, xs[0]);
      assert w1.index == w.index + 1;
      assert w1.buf[..w1.index] == w.buf[..w.index] + [xs[0]];
      PushAllPrefix(w1, xs[1..]);
      assert PushAll(w, xs) == PushAll(w1, xs[1..]);
      assert w.buf[..w.index] + [xs[0]] + xs[1..] == w.buf[..w.index] + xs;
    }
  }

  /** After k pushes the statistics read min(span + k, 100) slots, whatever
      the starting state; in particular all 100 once a full buffer has been
      pushed. */
  lemma {:induction false} SpanAfterPushes(w: Window, xs: seq<real>)
    requires WindowValid(w)
    ensures Span(PushAll(w, xs)) == if Span(w) + |xs| < ROLLING_BUFFER_SIZE then Span(w) + |xs| else ROLLING_BUFFER_SIZE
    decreases |xs|
  {
    if |xs| > 0 {
      SpanAfterPushes(Push(w, xs[0]), xs[1..]);
    }
  }

  /** Pushing one more sample after a batch is one more Push. */
  lemma {:induction false} PushAllSnoc(w: Window, xs: seq<real>, x: real)
    requires WindowValid(w)
    ensures PushAll(w, xs + [x]) == Push(PushAll(w, xs), x)
    decreases |xs|
  {
    if |xs| == 0 {
      assert xs + [x] == [x];
      assert [x][1..] == [];
    } else {
      assert (xs + [x])[0] == xs[0];
      assert (xs + [x])[1..] == xs[1..] + [x];
      PushAllSnoc(Push(w, xs[0]), xs[1..], x);
    }
  }

  /** How many pushes ago slot `i` was written when the next write goes to
      `index`: 0 for the slot just behind the index, counting backwards
      around the ring. */
  function Age(index: nat, i: nat): (a: nat)
    requires index < ROLLING_BUFFER_SIZE && i < ROLLING_BUFFER_SIZE
    ensures a < ROLLING_BUFFER_SIZE
  {
    if i < index then index - 1 - i else index + ROLLING_BUFFER_SIZE - 1 - i
  }

  /** One push makes the written slot the newest and ages every other slot
      by one. */
  lemma AgeStep(w: Window, x: real, i: nat)
    requires WindowValid(w) && i < ROLLING_BUFFER_SIZE
    ensures Age(Push(w, x).index, i) == if i == w.index then 0 else Age(w.index, i) + 1
  {
  }

  /** After pushing `xs`, a slot written k pushes ago holds the k-th most
      recent sample; a slot older than the batch keeps its previous value. */
  lemma {:induction false} SlotsAfterPushes(w: Window, xs: seq<real>, i: nat)
    requires WindowValid(w) && i < ROLLING_BUFFER_SIZE
    ensures var r := PushAll(w, xs);
      var a := Age(r.index, i);
      r.buf[i] == if a < |xs| then xs[|xs| - 1 - a] else w.buf[i]
    decreases |xs|
  {
    if |xs| > 0 {
      var ys, x := xs[..|xs| - 1], xs[|xs| - 1];
      assert xs == ys + [x];
      PushAllSnoc(w, ys, x);
      var v := PushAll(w, ys);
      AgeStep(v, x, i);
      SlotsAfterPushes(w, ys, i);
      if i != v.index {
        var a := Age(v.index, i);
        if a < |ys| {
          assert xs[|ys| - 1 - a] == ys[|ys| - 1 - a];
        }
      }
    }
  }

  /** Once at least a full buffer has been pushed, the statistics read every
      slot, and the slots hold exactly the 100 most recent samples, rotated
      so that the oldest sits at the write index. */
  lemma WindowAfterWrap(w: Window, xs: seq<real>)
    requires WindowValid(w) && |xs| >= ROLLING_BUFFER_SIZE
    ensures var r := PushAll(w, xs);
      var recent := xs[|xs| - ROLLING_BUFFER_SIZE..];
      && Span(r) == ROLLING_BUFFER_SIZE
      && Contents(r) == recent[ROLLING_BUFFER_SIZE - r.index..] + recent[..ROLLING_BUFFER_SIZE - r.index]
      && multiset(Contents(r)) == multiset(recent)
  {
    var r := PushAll(w, xs);
    var recent := xs[|xs| - ROLLING_BUFFER_SIZE..];
    SpanAfterPushes(w, xs);
    WrappedBuffer(w, xs);
    RotationPermutes(recent, ROLLING_BUFFER_SIZE - r.index);
    assert Contents(r) == r.buf;
  }

  /** Rotating a sequence permutes it. */
  lemma RotationPermutes(s: seq<real>, k: nat)
    requires k <= |s|
    ensures multiset(s[k..] + s[..k]) == multiset(s)
  {
    assert s == s[..k] + s[k..];
  }

  /** The whole buffer after a wrap, slot by slot. */
  lemma WrappedBuffer(w: Window, xs: seq<real>)
    requires WindowValid(w) && |xs| >= ROLLING_BUFFER_SIZE
    ensures var r := PushAll(w, xs);
      var recent := xs[|xs| - ROLLING_BUFFER_SIZE..];
      r.buf == recent[ROLLING_BUFFER_SIZE - r.index..] + recent[..ROLLING_BUFFER_SIZE - r.index]
  {
    var r := PushAll(w, xs);
    var recent := xs[|xs| - ROLLING_BUFFER_SIZE..];
    var k := ROLLING_BUFFER_SIZE - r.index;
    var rot := recent[k..] + recent[..k];
    forall i | 0 <= i < ROLLING_BUFFER_SIZE
      ensures r.buf[i] == rot[i]
    {
      RotatedSlot(w, xs, i);
    }
  }

  /** One slot of a wrapped window: slot `i` holds the sample at the
      matching position of the rotated recent history. */
  lemma RotatedSlot(w: Window, xs: seq<real>, i: nat)
    requires WindowValid(w) && |xs| >= ROLLING_BUFFER_SIZE && i < ROLLING_BUFFER_SIZE
    ensures var r := PushAll(w, xs);
      var recent := xs[|xs| - ROLLING_BUFFER_SIZE..];
      var k := ROLLING_BUFFER_SIZE - r.index;
      r.buf[i] == (recent[k..] + recent[..k])[i]
  {
    var r := PushAll(w, xs);
    SlotsAfterPushes(w, xs, i);
    RingPosition(r.buf, r.index, xs, i);
  }

  /** The index arithmetic behind RotatedSlot: the sample written
      Age(index, i) pushes ago is at position i of the rotated history. */
  lemma RingPosition(buf: seq<real>, index: nat, xs: seq<real>, i: nat)
    requires |buf| == ROLLING_BUFFER_SIZE && index < ROLLING_BUFFER_SIZE
    requires |xs| >= ROLLING_BUFFER_SIZE && i < ROLLING_BUFFER_SIZE
    requires buf[i] == xs[|xs| - 1 - Age(index, i)]
    ensures var recent := xs[|xs| - ROLLING_BUFFER_SIZE..];
      var k := ROLLING_BUFFER_SIZE - index;
      buf[i] == (recent[k..] + recent[..k])[i]
  {
    var recent := xs[|xs| - ROLLING_BUFFER_SIZE..];
    var k := ROLLING_BUFFER_SIZE - index;
    if i < index {
      assert (recent[k..] + recent[..k])[i] == recent[k + i];
    } else {
      assert (recent[k..] + recent[..k])[i] == recent[i - index];
    }
  }

  /** Sums split over a concatenation. */
  lemma {:induction false} SumConcat(a: seq<real>, b: seq<real>)
    ensures Sum(a + b) == Sum(a) + Sum(b)
    decreases |b|
  {
    if |b| == 0 {
      assert a + b == a;
    } else {
      assert (a + b)[..|a + b| - 1] == a + b[..|b| - 1];
      SumConcat(a, b[..|b| - 1]);
    }
  }

  lemma {:induction false} SumSqDevConcat(a: seq<real>, b: seq<real>, m: real)
    ensures SumSqDev(a + b, m) == SumSqDev(a, m) + SumSqDev(b, m)
    decreases |b|
  {
    if |b| == 0 {
      assert a + b == a;
    } else {
      assert (a + b)[..|a + b| - 1] == a + b[..|b| - 1];
      SumSqDevConcat(a, b[..|b| - 1], m);
    }
  }

  /** Once the buffer has wrapped, the rolling mean and deviation are those
      of the 100 most recent samples. */
  lemma RollingStatsOfRecent(w: Window, xs: seq<real>, sqrt: real -> real)
    requires WindowValid(w) && |xs| >= ROLLING_BUFFER_SIZE
    ensures var recent := xs[|xs| - ROLLING_BUFFER_SIZE..];
      && Span(PushAll(w, xs)) == ROLLING_BUFFER_SIZE
      && Mean(Contents(PushAll(w, xs))) == Mean(recent)
      && StdDev(Contents(PushAll(w, xs)), sqrt) == StdDev(recent, sqrt)
  {
    var r := PushAll(w, xs);
    var recent := xs[|xs| - ROLLING_BUFFER_SIZE..];
    WindowAfterWrap(w, xs);
    var k := ROLLING_BUFFER_SIZE - r.index;
    var a, b := recent[..k], recent[k..];
    assert recent == a + b;
    StatsRotate(a, b, sqrt);
  }

  /** The mean and deviation do not depend on where a sequence is cut and
      rotated. */
  lemma StatsRotate(a: seq<real>, b: seq<real>, sqrt: real -> real)
    requires |a + b| > 0
    ensures Mean(b + a) == Mean(a + b)
    ensures StdDev(b + a, sqrt) == StdDev(a + b, sqrt)
  {
    SumConcat(a, b);
    SumConcat(b, a);
    var m := Mean(a + b);
    assert Mean(b + a) == m;
    SumSqDevConcat(a, b, m);
    SumSqDevConcat(b, a, m);
    assert Variance(b + a) == Variance(a + b);
  }

  /** Sum of a sequence, accumulated from the front as the source's loop does. */
  function Sum(s: seq<real>): real
  {
    if |s| == 0 then 0.0 else Sum(s[..|s| - 1]) + s[|s| - 1]
  }

  /** Sum of squared deviations from `m`. */
  function SumSqDev(s: seq<real>, m: real): (r: real)
    ensures r >= 0.0
  {
    if |s| == 0 then 0.0 else SumSqDev(s[..|s| - 1], m) + Square(s[|s| - 1] - m)
  }

  /** Sum of squares, accumulated from the front. */
  function SumSq(s: seq<real>): real
  {
    if |s| == 0 then 0.0 else SumSq(s[..|s| - 1]) + Square(s[|s| - 1])
  }

  /** The sum of squared deviations from any centre `m` expands into the sum
      of squares, the sum and the count. */
  lemma {:induction false} SumSqDevExpands(s: seq<real>, m: real)
    ensures SumSqDev(s, m) == ExpandedDeviation(SumSq(s), Sum(s), |s| as real, m)
    decreases |s|
  {
    if |s| > 0 {
      SumSqDevExpands(s[..|s| - 1], m);
      SumSqDevExpandsLast(s, m);
    } else {
      ZeroProducts(m);
    }
  }

  lemma SumSqDevExpandsLast(s: seq<real>, m: real)
    requires |s| > 0
    requires SumSqDev(s[..|s| - 1], m) == ExpandedDeviation(SumSq(s[..|s| - 1]), Sum(s[..|s| - 1]), (|s| - 1) as real, m)
    ensures SumSqDev(s, m) == ExpandedDeviation(SumSq(s), Sum(s), |s| as real, m)
  {
    var init := s[..|s| - 1];
    DeviationStep(SumSqDev(init, m), SumSq(init), Sum(init), |init| as real, s[|s| - 1], m,
                  SumSqDev(s, m), SumSq(s), Sum(s), |s| as real);
  }

  /** The population variance equals the mean of the squares minus the
      square of the mean. */
  lemma VarianceByMoments(s: seq<real>)
    requires |s| > 0
    ensures Variance(s) == SumSq(s) / (|s| as real) - Mean(s) * Mean(s)
  {
    SumSqDevExpands(s, Mean(s));
    MomentIdentity(Variance(s), SumSqDev(s, Mean(s)), SumSq(s), Sum(s), Mean(s), |s| as real);
  }

  function Mean(s: seq<real>): real
    requires |s| > 0
  {
    Sum(s) / (|s| as real)
  }

  /** Population variance: the mean squared deviation from the mean. */
  function Variance(s: seq<real>): (v: real)
    requires |s| > 0
    ensures v >= 0.0
  {
    DivNonNegative(SumSqDev(s, Mean(s)), |s| as real);
    SumSqDev(s, Mean(s)) / (|s| as real)
  }

  /** Population standard deviation, with `sqrt` standing for sqrtf. */
  function StdDev(s: seq<real>, sqrt: real -> real): real
    requires |s| > 0
  {
    sqrt(Variance(s))
  }

  /** The standard deviation is a genuine root of the population variance. */
  lemma StdDevIsRootOfVariance(s: seq<real>, sqrt: real -> real)
    requires |s| > 0 && IsSqrt(sqrt)
    ensures StdDev(s, sqrt) >= 0.0
    ensures StdDev(s, sqrt) * StdDev(s, sqrt) == Variance(s)
  {
    SqrtOf(sqrt, Variance(s));
  }

  /** The two passes of update_rolling_stats over the first `Span(w)` slots:
      the mean first, then the mean squared deviation from it. */
  method ComputeStats(w: Window, sqrt: real -> real) returns (mean: real, std: real)
    requires WindowValid(w) && Span(w) > 0
    ensures mean == Mean(Contents(w))
    ensures std == StdDev(Contents(w), sqrt)
  {
    var count := Span(w);
    var sum := SumPrefix(w.buf, count);
    mean := sum / (count as real);
    var sumSq := SumSqDevPrefix(w.buf, count, mean);
    std := sqrt(sumSq / (count as real));
  }

  /** The first pass: the sum of the first `count` slots. */
  method SumPrefix(buf: seq<real>, count: nat) returns (sum: real)
    requires count <= |buf|
    ensures sum == Sum(buf[..count])
  {
    sum := 0.0;
    var i := 0;
    while i < count
      invariant 0 <= i <= count
      invariant sum == Sum(buf[..i])
    {
      assert buf[..i + 1][..i] == buf[..i];
      sum := sum + buf[i];
      i := i + 1;
    }
  }

  /** The second pass: the sum of squared deviations of the first `count`
      slots from `mean`. */
  method SumSqDevPrefix(buf: seq<real>, count: nat, mean: real) returns (sumSq: real)
    requires count <= |buf|
    ensures sumSq == SumSqDev(buf[..count], mean)
  {
    sumSq := 0.0;
    var i := 0;
    while i < count
      invariant 0 <= i <= count
      invariant sumSq == SumSqDev(buf[..i], mean)
    {
      assert buf[..i + 1][..i] == buf[..i];
      sumSq := sumSq + Square(buf[i] - mean);
      i := i + 1;
    }
  }
}

=== FILE: systick.dfy ===
/** The wraparound-safe elapsed-time test of the millisecond tick driver.
    The tick counter itself is written by an interrupt and is not modelled:
    its value at the moment of the call is the parameter `now`. */
module SysTick {
  import opened Numeric

  /** systick_has_elapsed, with the single counter snapshot passed as `now`.
      Both branches of the source are kept: the direct comparison when the
      counter has not wrapped since `start`, and the explicit
      `0xFFFFFFFF - start + now + 1` sum (in uint32 arithmetic) when it has. */
  function HasElapsed(now: u32, start: u32, interval: u32): (r: bool)
    ensures r <==> Sub32(now, start) >= interval
  {
    var elapsed := Sub32(now, start);
    if now >= start then
      elapsed >= interval
    else
      OverflowElapsedIsModular(now, start);
      OverflowElapsed(now, start) >= interval
  }

  /** The overflow branch's arithmetic, `0xFFFFFFFF - start + now + 1`,
      evaluated step by step in uint32. */
  function OverflowElapsed(now: u32, start: u32): u32
  {
    Add32(Add32(Sub32(U32_MAX, start), now), 1)
  }

  /** In the overflow branch, no intermediate uint32 step wraps and the
      result is exactly the modular difference `(now - start) mod 2^32`. */
  lemma OverflowElapsedIsModular(now: u32, start: u32)
    requires now < start
    ensures U32_MAX - start + now + 1 < U32_MOD
    ensures OverflowElapsed(now, start) == U32_MAX - start + now + 1
    ensures OverflowElapsed(now, start) == Sub32(now, start)
  {
    var a := Sub32(U32_MAX, start);
    assert a == U32_MAX - start;
    var b := Add32(a, now);
    assert a + now < U32_MOD;
    assert b == U32_MAX - start + now;
    assert b + 1 < U32_MOD;
  }

  /** A zero interval has always elapsed. */
  lemma ZeroIntervalAlwaysElapsed(now: u32, start: u32)
    ensures HasElapsed(now, start, 0)
  {
  }

  /** Monotone in the interval: once an interval has elapsed, every shorter
      one has elapsed too. */
  lemma ElapsedMonotone(now: u32, start: u32, longer: u32, shorter: u32)
    requires shorter <= longer
    requires HasElapsed(now, start, longer)
    ensures HasElapsed(now, start, shorter)
  {
  }

  /** Wraparound safety: if the counter has advanced by `d` ticks since
      `start` (fewer than 2^32), the test answers exactly `d >= interval`,
      whether or not the counter wrapped in between. */
  lemma ElapsedAcrossWrap(start: u32, d: u32, interval: u32)
    ensures HasElapsed(Add32(start, d), start, interval) <==> d >= interval
  {
    var now := Add32(start, d);
    if start + d < U32_MOD {
      assert now == start + d;
      assert Sub32(now, start) == d;
    } else {
      assert now == start + d - U32_MOD;
      assert now < start;
      assert Sub32(now, start) == d;
    }
  }
}

=== FILE: ui_oled.dfy ===
/** The text layout of the OLED screens: horizontal centring in a 128-pixel
    line of 6-pixel characters, the truncated exercise line and the decimal
    count line. The display driver is not modelled; a screen is the list of
    text draws issued between clearing the display and pushing the frame. */
module UiOled {
  import opened Numeric

  const DISPLAY_WIDTH: nat := 128
  const CHAR_WIDTH: nat := 6
  const LINE_CHARS: nat := 21

  /** One ssd1306_draw_text call: column in pixels, text row, text. */
  datatype Draw = Draw(x: nat, row: nat, text: string)

  /** The draws of one screen, in order. */
  datatype Screen = Screen(draws: seq<Draw>)

  function Width(text: string): nat
  {
    |text| * CHAR_WIDTH
  }

  /** Where a line of text is placed: centred when it fits, with any odd
      spare pixel on the right, and at the left edge when it does not. */
  ghost predicate Placed(x: nat, text: string)
  {
    if Width(text) < DISPLAY_WIDTH then
      x + Width(text) <= DISPLAY_WIDTH && (DISPLAY_WIDTH - Width(text) - 2 * x == 0 || DISPLAY_WIDTH - Width(text) - 2 * x == 1)
    else
      x == 0
  }

  // -------------------------------------------------------------- centring

  /** center_text_x as written: the pixel width is computed in uint8, so it
      wraps modulo 256 before the too-wide test. */
  function CenterTextXAsWritten(text: string): (x: u8)
    ensures (|text| * CHAR_WIDTH) % 0x100 >= DISPLAY_WIDTH ==> x == 0
    ensures (|text| * CHAR_WIDTH) % 0x100 < DISPLAY_WIDTH ==> x + (|text| * CHAR_WIDTH) % 0x100 <= DISPLAY_WIDTH
  {
    var w := (|text| * CHAR_WIDTH) % 0x100;
    if w >= DISPLAY_WIDTH then 0 else (DISPLAY_WIDTH - w) / 2
  }

  /** center_text_x with the width computed without truncation, as the
      left-edge fallback intends: every text is placed. */
  function CenterX(text: string): (x: u8)
    ensures Placed(x, text)
  {
    if Width(text) >= DISPLAY_WIDTH then 0 else (DISPLAY_WIDTH - Width(text)) / 2
  }

  /** The two agree on every text of at most 42 characters, whose width
      still fits in a uint8; that covers every line the firmware draws. */
  lemma CenterAgreesUpTo42(text: string)
    requires |text| <= 42
    ensures CenterTextXAsWritten(text) == CenterX(text)
  {
  }

  /** From 43 characters on the uint8 width wraps: a 43-character text is
      258 pixels wide, wraps to 2, passes the too-wide test and is placed at
      column 63, so it is neither at the left edge nor inside the display. */
  lemma WidthWrapCounterexample(text: string)
    requires |text| == 43
    ensures CenterTextXAsWritten(text) == 63
    ensures CenterX(text) == 0
    ensures !Placed(CenterTextXAsWritten(text), text)
  {
  }

  // -------------------------------------------------------- exercise line

  /** The first line of ui_show_exercise_and_count: the name copied into a
      22-byte buffer, with the last three of 21 characters replaced by "..."
      when the name is longer than that. */
  function ExerciseLine(name: string): (line: string)
    ensures |line| <= LINE_CHARS
    ensures |name| <= LINE_CHARS ==> line == name
    ensures |name| > LINE_CHARS ==> |line| == LINE_CHARS && line[..18] == name[..18] && line[18..] == "..."
  {
    if |name| > LINE_CHARS then name[..18] + "..." else name
  }

  /** Composing the line twice changes nothing, and the line always starts
      with the first 18 characters of the name (or the whole of a shorter
      name). */
  lemma ExerciseLineStable(name: string)
    ensures ExerciseLine(ExerciseLine(name)) == ExerciseLine(name)
    ensures var k := if |name| < 18 then |name| else 18;
      ExerciseLine(name)[..k] == name[..k]
  {
  }

  // ----------------------------------------------------------- count line

  function DigitChar(d: nat): (c: char)
    requires d < 10
    ensures '0' <= c <= '9'
  {
    ['0', '1', '2', '3', '4', '5', '6', '7', '8', '9'][d]
  }

  function DigitValue(c: char): (d: nat)
    requires '0' <= c <= '9'
    ensures d < 10
  {
    (c as int) - ('0' as int)
  }

  predicate IsDigits(s: string)
  {
    forall i :: 0 <= i < |s| ==> '0' <= s[i] <= '9'
  }

  /** `%d` of a non-negative value: its decimal digits, most significant
      first, without leading zeros. */
  function Decimal(n: nat): (s: string)
    ensures 0 < |s| && IsDigits(s)
    ensures s[0] == '0' ==> n == 0
    decreases n
  {
    if n < 10 then [DigitChar(n)] else Decimal(n / 10) + [DigitChar(n % 10)]
  }

  /** The value of a string of decimal digits. */
  function ParseDecimal(s: string): nat
    requires IsDigits(s)
    decreases |s|
  {
    if |s| == 0 then 0 else ParseDecimal(s[..|s| - 1]) * 10 + DigitValue(s[|s| - 1])
  }

  lemma DigitRoundTrip(d: nat)
    requires d < 10
    ensures DigitValue(DigitChar(d)) == d
  {
  }

  /** Printing a count and reading it back gives the count. */
  lemma {:induction false} DecimalRoundTrip(n: nat)
    ensures ParseDecimal(Decimal(n)) == n
    decreases n
  {
    DigitRoundTrip(n % 10);
    if n >= 10 {
      DecimalRoundTrip(n / 10);
      var s := Decimal(n);
      assert s[..|s| - 1] == Decimal(n / 10);
    }
  }

  /** A uint16 count prints in at most five characters. */
  lemma {:induction false} DecimalLength(n: nat)
    ensures n < 10 ==> |Decimal(n)| == 1
    ensures n < 100 ==> |Decimal(n)| <= 2
    ensures n < 1000 ==> |Decimal(n)| <= 3
    ensures n < 10_000 ==> |Decimal(n)| <= 4
    ensures n < 100_000 ==> |Decimal(n)| <= 5
    decreases n
  {
    if n >= 10 {
      DecimalLength(n / 10);
    }
  }

  /** The second line of ui_show_exercise_and_count. */
  function CountLine(count: u16): (line: string)
    ensures 7 <= |line| <= 11 < 22
    ensures line[..6] == "Reps: " && IsDigits(line[6..])
    ensures ParseDecimal(line[6..]) == count
  {
    DecimalLength(count);
    DecimalRoundTrip(count);
    var line := "Reps: " + Decimal(count);
    assert line[6..] == Decimal(count);
    line
  }

  // -------------------------------------------------------------- screens

  /** Every draw of a screen is placed by the centring rule. */
  ghost predicate AllPlaced(s: Screen)
  {
    forall i :: 0 <= i < |s.draws| ==> Placed(s.draws[i].x, s.draws[i].text)
  }

  function Centred(row: nat, text: string): (d: Draw)
    ensures Placed(d.x, d.text) && d.row == row && d.text == text
  {
    Draw(CenterX(text), row, text)
  }

  /** ui_show_splash. */
  function Splash(title: string): (s: Screen)
    ensures AllPlaced(s)
    ensures |s.draws| == 3 && s.draws[0].text == title && s.draws[0].row == 0
    ensures s.draws[1].text == "Ready to Track!" && s.draws[2].text == "v1.0"
    ensures s.draws[1].row == 1 && s.draws[2].row == 2
  {
    Screen([Centred(0, title), Centred(1, "Ready to Track!"), Centred(2, "v1.0")])
  }

  /** ui_show_select. */
  function Select(name: string): (s: Screen)
    ensures AllPlaced(s)
    ensures |s.draws| == 3 && s.draws[1].text == name && s.draws[1].row == 1
    ensures s.draws[0].text == "Select:" && s.draws[0].row == 0
    ensures s.draws[2].text == "Auto-advance in 2s" && s.draws[2].row == 2
  {
    Screen([Centred(0, "Select:"), Centred(1, name), Centred(2, "Auto-advance in 2s")])
  }

  /** ui_show_calibrating. */
  function Calibrating(name: string): (s: Screen)
    ensures AllPlaced(s)
    ensures |s.draws| == 3 && s.draws[0].text == name && s.draws[0].row == 0
    ensures s.draws[1].text == "Calibrating..." && s.draws[2].text == "Hold Still..."
    ensures s.draws[1].row == 1 && s.draws[2].row == 2
  {
    Screen([Centred(0, name), Centred(1, "Calibrating..."), Centred(2, "Hold Still...")])
  }

  /** ui_show_status. */
  function Status(status: string): (s: Screen)
    ensures AllPlaced(s)
    ensures |s.draws| == 2 && s.draws[0].text == status && s.draws[0].row == 1
    ensures s.draws[1].text == "Hold Still..." && s.draws[1].row == 2
  {
    Screen([Centred(1, status), Centred(2, "Hold Still...")])
  }

  /** ui_show_exercise_and_count: whatever the name and count, every line
      fits on the display and the count can be read back from it. */
  function ExerciseAndCount(name: string, count: u16): (s: Screen)
    ensures AllPlaced(s) && |s.draws| == 3
    ensures forall i :: 0 <= i < 3 ==> s.draws[i].row == i && s.draws[i].x + Width(s.draws[i].text) <= DISPLAY_WIDTH
    ensures s.draws[0].text == ExerciseLine(name)
    ensures s.draws[1].text == CountLine(count)
    ensures s.draws[1].text[..6] == "Reps: " && ParseDecimal(s.draws[1].text[6..]) == count
  {
    Screen([Centred(0, ExerciseLine(name)), Centred(1, CountLine(count)), Centred(2, "Keep Going!")])
  }

  /** ui_show_two_lines. */
  function TwoLines(line1: string, line2: string): (s: Screen)
    ensures AllPlaced(s)
    ensures |s.draws| == 2 && s.draws[0].text == line1 && s.draws[1].text == line2
  {
    Screen([Centred(1, line1), Centred(2, line2)])
  }

  /** ui_show_centered_message. */
  function CenteredMessage(message: string): (s: Screen)
    ensures AllPlaced(s)
    ensures |s.draws| == 1 && s.draws[0].text == message
  {
    Screen([Centred(1, message)])
  }
}
